=== FILE: README.md ===
# Dailymotion upload bot: a verified model of its bookkeeping

The repository is a Telegram bot that collects a user's Dailymotion API credentials and
uploads the videos the user sends. This project models two of its variants, `main.py` and
`dailymotion_bot.py`.

`main.py` is a class-based bot, `TelegramDailymotionBot`. It has:
- a per-user conversation that asks for the API key, API secret, username and password;
- a filter that saves the sessions without their transient `video_message`;
- an extension whitelist for documents;
- the size routing and status texts of `process_video_upload`;
- a `DailymotionUploader` that caches its access token and tries a list of endpoints in order.

`dailymotion_bot.py` is a handler-based bot. It parses a whole `Key: value` credential block,
computes the missing required fields, and gates its handlers on a `waiting_for` field of a
global `user_credentials` map.

This project models that bookkeeping and string logic in Dafny and proves properties of it.
The network and Telegram calls the bookkeeping depends on are replaced by parameters: the
answer an endpoint gives, or the value a hidden call returns or the exception it raises.
File-system effects are left out (see below).

Modules:

| file | module | models |
|---|---|---|
| values.dfy | `Values` | user ids, `Option`, `Outcome` (a result or an exception text), Python truthiness |
| text.dfy | `Text` | ASCII `strip`, `lower`, `split('\n')`, `split(':', 1)`, `replace`, substring `in`, `endswith` |
| uploader.dfy | `Uploader` | `DailymotionUploader`: token cache, endpoint fallback loops, 403 classification |
| sessions.dfy | `Sessions` | `start_command`, `handle_message`, `save_sessions` of `TelegramDailymotionBot` |
| video.dfy | `VideoUpload` | `handle_document`, `handle_video`, POSIX `os.path.splitext`, `process_video_upload` |
| credentials.dfy | `CredentialBot` | the parser and the four handlers of `dailymotion_bot.py` |

How state is modelled:
- **Classes where the code mutates in place.** `Uploader.DailymotionUploader`,
  `Sessions.Bot` and `CredentialBot.CredentialStore` are classes whose methods update
  their fields. Each method is specified by pure functions over the old state
  (`Sessions.AfterMessage`, `CredentialBot.AfterVideo`, ...). The properties of the
  bookkeeping are proved about those functions.
- **Methods with loops where the code loops.** The endpoint loops and the line-by-line
  parser are methods with loops, proved against a specification function.

Behaviour of the code worth noting:
- The password step always ends in `authenticated`, whatever the token request returns,
  and nothing resets it; the stored credentials are kept.
- The duration and quota classification of a 403 in `create_video` is raised inside the
  endpoint loop and caught by the loop's own `except`, which moves on to the next endpoint.
  When every endpoint answers 403 (`Uploader.ForbiddenEverywhereIsSwallowed`), `create_video`
  returns `None` and the user gets the plain "Video creation failed" text, never the
  duration or quota message (`VideoUpload.ForbiddenEverywhereShowsCreationFailed`). A 403
  from one endpoint only moves the loop on (`VideoUpload.ForbiddenThenCreatedSucceeds`).
- The steps of a session in `main.py` are only `waiting_api_key`, `waiting_api_secret`,
  `waiting_username`, `waiting_password` and `authenticated`.

## Model

| member | source | states |
|---|---|---|
| Text.StripIdempotent | main.py:308 | stripping a stripped text changes nothing |
| Text.JoinSplitOn | dailymotion_bot.py:59 | `split('\n')` loses nothing: joining the parts with the separator gives the text back |
| Text.NatToDecimal | dailymotion_bot.py:158 | `str(int(...))` writes decimal digits that denote the number, with no leading zero |
| Text.SplitFirst | dailymotion_bot.py:64 | `split(':', 1)` cuts at the first ':', the part before holds no ':' and the parts rebuild the line |
| Uploader.FetchToken | main.py:127-146 | a request is sent iff the cached token is falsy; a truthy cached token is returned unchanged; a truthy returned token is the one cached; a request that raises propagates its exception and leaves the cache as it was; a 200 answer returns and caches the body's access_token; any other status returns None and keeps the cache |
| Uploader.CachedTokenIsFinal | main.py:128-129 | once a truthy token is cached, no later call sends a request or changes the cache, whatever the server would answer |
| Uploader.NoTokenMeansRequestEveryCall | main.py:127-146 | without a cached token and without a 200 answer carrying a truthy token, every call sends a request and the cache stays falsy |
| Uploader.FirstAccepted | main.py:155-160 | the index found is the first endpoint whose answer is accepted; every endpoint before it was refused; it is the list length when none is accepted |
| Uploader.LoggedMentions | main.py:161-162 | every endpoint that was tried and raised has its error line in the log |
| Uploader.ClassifyForbidden | main.py:200-208 | 'duration' in the lower-cased message gives video_duration_exceeded; otherwise 'quota' or 'limit' gives quota_exceeded; otherwise access_forbidden |
| Uploader.UnknownErrorIsForbidden | main.py:202-208 | a 403 without a message ('Unknown error') is classified as access_forbidden |
| Uploader.QueryUploadEndpoints | main.py:153-163 | the endpoints are tried in order; the first 200 answer's upload and progress URLs are returned and no later endpoint is asked; with no 200 answer both URLs are None after all endpoints; the log holds exactly the raised errors |
| Uploader.QueryVideoEndpoints | main.py:192-211 | the first 200/201 answer gives its id and stops the loop; otherwise None after all endpoints; every raised error and every 403 classification goes to the log |
| Uploader.ForbiddenEverywhereIsSwallowed | main.py:200-211 | when every video endpoint answers 403, no endpoint is accepted (so create_video returns None) and each classification appears only in the log |
| Uploader.AllForbiddenCreatesNothing | main.py:192-211 | when every video endpoint answers 403, the loop reaches its end without an accepted answer and the id it yields is None |
| Uploader.DailymotionUploader.constructor | main.py:118-125 | the token and the four credentials start as None |
| Uploader.DailymotionUploader.GetAccessToken | main.py:127-146 | the result, whether a request is sent and the new cached token are those of FetchToken on the old cache |
| Uploader.DailymotionUploader.GetUploadUrl | main.py:148-163 | a raising token request propagates; a falsy token gives (None, None), asks no endpoint and logs nothing; otherwise the result and the log of the endpoint loop |
| Uploader.DailymotionUploader.CreateVideo | main.py:180-211 | a raising token request propagates; a falsy token gives None and asks no endpoint; otherwise the id of the first 200/201 answer or None, with the log of the loop |
| Sessions.Started | main.py:266-267 | /start adds exactly the user; an unseen user gets {'step': 'waiting_api_key', 'channels': {}}; an existing session and every other session are kept |
| Sessions.StartIdempotent | main.py:266-267 | a repeated /start leaves user_sessions as the first one left it |
| Sessions.AfterMessage | main.py:302-321 | no user is added or removed and other users are untouched; an unknown user, an 'authenticated' session or a message without text changes nothing; from 'waiting_password' the step becomes 'authenticated' with the stripped password stored |
| Sessions.MessageKeepsWellFormed | main.py:307-321 | after any message, every session holds exactly the credential keys its step has collected |
| Sessions.StartKeepsWellFormed | main.py:266-267 | /start keeps every session well formed |
| Sessions.FourMessagesAuthenticate | main.py:307-321 | four texts sent from 'waiting_api_key' store the four stripped texts under api_key, api_secret, username and password in that order and end in 'authenticated'; nothing else changes |
| Sessions.AuthenticatedIsFinal | main.py:304-305 | once a session is 'authenticated', no series of text messages changes user_sessions |
| Sessions.UnknownUserStaysUnknown | main.py:304-305 | messages from a user without a session never create one |
| Sessions.PersistAll | main.py:248 | the saved copy has the same user ids and no session in it holds a video message |
| Sessions.PersistKeepsOtherKeys | main.py:248 | every key other than video_message is saved with its value |
| Sessions.PersistIdempotent | main.py:248 | filtering a saved copy again changes nothing |
| Sessions.PersistWithoutVideoMessage | main.py:248 | sessions without a video message are saved exactly as they are |
| Sessions.Bot.constructor | main.py:221-222 | no sessions, nothing saved, an uploader without a token |
| Sessions.Bot.SaveSessions | main.py:246-253 | the session file receives the filtered copy of user_sessions |
| Sessions.Bot.StartCommand | main.py:264-275 | user_sessions becomes Started of the old map, the sessions stay well formed and the file receives their filtered copy |
| Sessions.Bot.HandleMessage | main.py:302-328 | user_sessions becomes AfterMessage of the old map. No reply for an unknown or authenticated user. A message without text raises with nothing saved. The three first steps reply and save. The password step copies the four credentials into the shared uploader and runs the token fetch; it replies success and saves unless the request raises |
| VideoUpload.AnyEndsWith | main.py:336 | true iff some listed suffix ends the text |
| VideoUpload.AcceptsDocument | main.py:335-336 | a document is accepted iff its file name is non-empty and its lower-cased form ends with one of the eleven listed extensions |
| VideoUpload.VideoFileName | main.py:331 | a video's own non-empty file name is used, otherwise exactly "video.mp4", which the document test would accept |
| VideoUpload.SplitExt | main.py:364 | root plus extension is the path; there is an extension exactly when the last path component holds a dot with a non-dot character before it, and it then runs from the last dot (no further dot, no slash) |
| VideoUpload.SplitExtLeadingDot | main.py:364 | a name made of a leading dot and an extension, such as ".mkv", has no extension |
| VideoUpload.TempSuffix | main.py:364 | the suffix is a dot followed by no dot and no slash; it ends the name when the name has an extension, and is ".mp4" otherwise |
| VideoUpload.VideoTitle | main.py:381 | the title is the whole name when it has no extension, and otherwise the name minus the temporary file's suffix |
| VideoUpload.SplitExtFindsSuffix | main.py:364 | when the lower-cased name ends with an extension, splitext finds none exactly when every character of the last component before it is a dot, and otherwise finds that extension up to case |
| VideoUpload.AcceptedSuffixIsListed | main.py:364 | the temporary file of an accepted document always ends with a listed extension (up to case), its own or the '.mp4' default |
| VideoUpload.RouteFor | main.py:368-374 | files of at most 20 MB go through the Bot API, larger ones through the large-file download |
| VideoUpload.ErrorStatus | main.py:394-402 | the exception text is tested for 'video_duration_exceeded', then 'quota_exceeded', then 'Download failed' or 'empty', and otherwise shown as it is |
| VideoUpload.PlainWhenLacking | main.py:394-402 | a text missing one character of each keyword contains none of them and falls through to the plain failure text |
| VideoUpload.DownloadFailedWhenMentioned | main.py:394-400 | a text without an underscore that mentions 'Download failed' or 'empty' is reported as a failed download |
| VideoUpload.VideoUrl | main.py:388 | the link is the dailymotion video prefix followed by the id |
| VideoUpload.VideoUrlInjective | main.py:388 | different ids give different links |
| VideoUpload.ProcessVideoUpload | main.py:354-407 | no size fails before any temporary file is made; above 2048 MB the file is refused before any temporary file is made; otherwise a temporary file with the splitext suffix is made and the route follows the size; the upload succeeds iff the download is non-empty and both upload_video_file and create_video return truthy values, and then shows the title and the link; a failed run shows the classification of the first step that failed: the download's exception, the empty-download text, the upload's exception, "Upload failed", create_video's exception or "Video creation failed" |
| VideoUpload.PlainErrorTexts | main.py:359-386 | the texts raised for a missing size, a failed upload and a failed creation carry no keyword and are shown as they are |
| VideoUpload.EmptyDownloadIsReported | main.py:368-400 | an empty download is reported as a failed download on both paths |
| VideoUpload.ForbiddenTextsWouldClassify | main.py:395-398 | each text create_video raises for a 403 would select its own message if it reached the handler |
| VideoUpload.ForbiddenNeverReachesUser | main.py:384-386 | when create_video returns None, as it does for a creation refused with a 403 by every endpoint, the user is shown "Video creation failed" |
| VideoUpload.ForbiddenEverywhereShowsCreationFailed | main.py:192-211 | end to end: when every video endpoint answers 403, create_video's loop yields None and an uploaded file is reported as "Video creation failed" |
| VideoUpload.ForbiddenThenCreatedSucceeds | main.py:192-211 | a 403 from the first video endpoint followed by a 201 with an id from the second gives a successful upload with that id's link |
| CredentialBot.NormaliseKey | dailymotion_bot.py:65 | a normalised key has no space, no capital and no leading or trailing whitespace |
| CredentialBot.NormaliseKeyIdempotent | dailymotion_bot.py:65 | normalising a normalised key changes nothing |
| CredentialBot.DocumentedLabelsNormalise | dailymotion_bot.py:16-19 | the labels of the documented format, such as "API Key", give api_key, api_secret, username and password |
| CredentialBot.ParseLine | dailymotion_bot.py:63-66 | a line gives an entry iff it holds ':' |
| CredentialBot.ParseLineCutsAtFirstColon | dailymotion_bot.py:64-66 | a line is cut at its first ':', so the key is the normalised text before it and the value is the stripped rest, colons included |
| CredentialBot.StoredKeys | dailymotion_bot.py:62-67 | the dictionary's keys are exactly the keys of the lines that hold ':'; other lines are ignored |
| CredentialBot.LastLineWins | dailymotion_bot.py:67 | the value under a key is the value of the last line with that key |
| CredentialBot.ParseCredentials | dailymotion_bot.py:59-67 | the loop builds the dictionary of the stripped text's lines, as the fold of their parse results |
| CredentialBot.Absent | dailymotion_bot.py:70 | the result holds exactly the fields that are not keys of the dictionary, in their original order |
| CredentialBot.Missing | dailymotion_bot.py:69-70 | the missing fields are exactly the absent required ones, in the order api_key, api_secret, username, password |
| CredentialBot.NothingMissing | dailymotion_bot.py:72 | nothing is missing iff all four required keys were parsed |
| CredentialBot.VideoGateNeedsOnlyWaiting | dailymotion_bot.py:112-114 | in a map the handlers keep valid, the api_key test of handle_video never decides anything |
| CredentialBot.AfterCredentialsCommand | dailymotion_bot.py:29 | /credentials replaces the user's whole entry by one waiting for credentials and holding none; other entries are kept |
| CredentialBot.AfterUploadCommand | dailymotion_bot.py:35-48 | without saved credentials the map is unchanged; otherwise only waiting_for becomes 'video' |
| CredentialBot.CredentialsReply | dailymotion_bot.py:72-106 | missing fields are reported first; otherwise the reply follows authenticate(): saved on true, failed on false, processing error when it raises |
| CredentialBot.AfterCredentials | dailymotion_bot.py:86-93 | only a block that authenticates is stored, as exactly its four fields with waiting_for None; in every other case the map is unchanged |
| CredentialBot.UploadTitle | dailymotion_bot.py:158 | the title is the non-empty file name, otherwise "Video_" followed by the time in seconds |
| CredentialBot.ResultReply | dailymotion_bot.py:168-191 | "SIZE_ERROR" gives the size message; another truthy result gives success with that id, the title and the URL from get_video_url, or the generic error when get_video_url raises; a falsy one gives failure |
| CredentialBot.VideoReplyFor | dailymotion_bot.py:112-207 | a user not waiting for a video is told to use /upload; a file over 4096 MB is refused; a missing size, or a raise from the progress trackers, the download, the uploader's construction or upload_video, gives the generic error; otherwise the reply classifies upload_video's result |
| CredentialBot.AfterVideo | dailymotion_bot.py:112-200 | the entry is unchanged when the video is refused, and otherwise only its waiting_for is reset, whatever the upload's result |
| CredentialBot.CredentialsCommandRevokesUpload | dailymotion_bot.py:29-40 | after /credentials the user has no saved credentials and /upload is refused without changing the map |
| CredentialBot.SavedThenUploadAcceptsVideo | dailymotion_bot.py:86-114 | after a block that authenticates, /upload makes the next video pass the gate |
| CredentialBot.SecondVideoNeedsUpload | dailymotion_bot.py:112-200 | once a video has been processed, the next one is refused until a new /upload |
| CredentialBot.CredentialStore.CredentialsCommand | dailymotion_bot.py:10-29 | the map becomes AfterCredentialsCommand of the old one and stays valid |
| CredentialBot.CredentialStore.UploadCommand | dailymotion_bot.py:31-48 | the ready reply is sent iff the user has saved credentials; the map becomes AfterUploadCommand of the old one |
| CredentialBot.CredentialStore.HandleCredentials | dailymotion_bot.py:50-55 | text is processed only while the entry waits for credentials; otherwise nothing is replied and nothing changes |
| CredentialBot.CredentialStore.ProcessCredentials | dailymotion_bot.py:57-106 | the reply is CredentialsReply and the new map AfterCredentials of the parsed message, and the map stays valid |
| CredentialBot.CredentialStore.HandleVideo | dailymotion_bot.py:108-207 | the reply is VideoReplyFor and the new map AfterVideo of the old one, and the map stays valid |

## Left out

- Telegram transport is not modelled: replies, message edits, `get_file`, `download_to_drive`, `download_media` and the Pyrogram client. Their results are parameters: the downloaded size, or what a download raised.
- HTTP requests, JSON decoding and multipart upload are not modelled. Each answer is a parameter: a status with the fields read from its body, or an exception. `upload_video_file` is represented only by its result.
- The `DailymotionUploader` class (`authenticate`, `upload_video`, `get_video_url`) and `ProgressTracker` of `dailymotion_bot.py` are not part of this model. What `authenticate`, `upload_video` and `get_video_url` return or raise are parameters. A raise from the `ProgressTracker` or `DailymotionUploader` constructors, or from `download_media`, is folded into the single `prepare` parameter of `CredentialBot.VideoReplyFor`, since all of them lead to the same generic error reply.
- `DownloadSpeedMonitor` is not modelled: floating-point speed, ETA and progress-bar text driven by the wall clock.
- File-system effects are not modelled: temporary files and their deletion, `json.dump`, and the failures of opening or writing the session file. `Sessions.Bot.SaveSessions` records the filtered copy as the file's content.
- `load_sessions` is not modelled. The session file lives in a directory created fresh by `mkdtemp` in the same constructor, so at start-up it never exists.
- The health server, signal handlers, the event-loop lifecycle and environment configuration are not modelled.
- The `/help`, `/test` and `/force` commands are not modelled. They only reply, or call `get_access_token`, whose cache `Uploader.DailymotionUploader.GetAccessToken` already models.
- `str.strip` and `str.lower` are modelled on ASCII only. Non-ASCII whitespace and non-ASCII capitals are treated as ordinary characters.
- Concurrency between handlers is not modelled. Each handler runs to completion before the next message. For example, an entry replaced by `/credentials` while an upload is awaited is not modelled.
- Sizes are compared as whole bytes (`size > 2048 * 1048576` and so on). Python divides by 1024 * 1024 in floating point, which is exact for any size Telegram reports, so the comparisons agree.
- CredentialBot.CredentialStore.constructor: takes the initial `user_credentials` map as a parameter and requires its entries to be valid, because the definition of that map is not part of this model.
- CredentialBot.VideoReplyFor: does not model the "Video received" and progress messages sent before the final reply, nor a failure of `reply_text` itself.

=== FILE: credentials.dfy ===
/** dailymotion_bot.py: the `Key: value` credential block parser and the per-user
    `waiting_for` gating of the user_credentials map shared by the handlers
    credentials_command, upload_command, handle_credentials and handle_video. */
module CredentialBot {
  import opened Values
  import opened Text
  import VideoUpload

  // ---------------------------------------------------------------------------
  // Parsing a credential block (process_credentials, lines 58-67)

  /** key.strip().lower().replace(' ', '_') */
  function NormaliseKey(k: string): (r: string)
    ensures |r| <= |k|
    ensures forall i :: 0 <= i < |r| ==> r[i] != ' ' && !('A' <= r[i] <= 'Z')
    ensures r == [] || (!IsSpace(r[0]) && !IsSpace(r[|r| - 1]))
  {
    var lowered := Lower(Strip(k));
    ReplaceChar(lowered, ' ', '_')
  }

  /** A normalised key is its own normal form. */
  lemma NormaliseKeyIdempotent(k: string)
    ensures NormaliseKey(NormaliseKey(k)) == NormaliseKey(k)
  {
    var r := NormaliseKey(k);
    StripKeeps(r);
    LowerKeeps(r);
    ReplaceAbsent(r, ' ', '_');
  }

  /** The labels of the documented format normalise to the required keys. */
  lemma DocumentedLabelsNormalise()
    ensures NormaliseKey("API Key") == "api_key"
    ensures NormaliseKey("API Secret") == "api_secret"
    ensures NormaliseKey("Username") == "username"
    ensures NormaliseKey("Password") == "password"
  {
    ApiKeyLabel();
    ApiSecretLabel();
    UsernameLabel();
    PasswordLabel();
  }

  /** Normalisation step by step: strip, then lower, then spaces to underscores. */
  lemma NormaliseSteps(k: string, lowered: string, key: string)
    requires Strip(k) == k && Lower(k) == lowered && ReplaceChar(lowered, ' ', '_') == key
    ensures NormaliseKey(k) == key
  {
  }

  lemma ApiKeyLabel()
    ensures NormaliseKey("API Key") == "api_key"
  {
    StripKeeps("API Key");
    assert Lower("API Key") == "api key";
    assert ReplaceChar("api key", ' ', '_') == "api_key";
    NormaliseSteps("API Key", "api key", "api_key");
  }

  lemma ApiSecretLabel()
    ensures NormaliseKey("API Secret") == "api_secret"
  {
    StripKeeps("API Secret");
    assert Lower("API Secret") == "api secret";
    assert ReplaceChar("api secret", ' ', '_') == "api_secret";
    NormaliseSteps("API Secret", "api secret", "api_secret");
  }

  lemma UsernameLabel()
    ensures NormaliseKey("Username") == "username"
  {
    StripKeeps("Username");
    assert Lower("Username") == "username";
    ReplaceAbsent("username", ' ', '_');
    NormaliseSteps("Username", "username", "username");
  }

  lemma PasswordLabel()
    ensures NormaliseKey("Password") == "password"
  {
    StripKeeps("Password");
    assert Lower("Password") == "password";
    ReplaceAbsent("password", ' ', '_');
    NormaliseSteps("Password", "password", "password");
  }

  /** One dictionary entry: credentials[key] = value. */
  datatype Field = Field(key: string, value: string)

  /** A line holding ':' is cut at its first ':' into a normalised key and a stripped
      value; any other line gives nothing. */
  function ParseLine(line: string): (f: Option<Field>)
    ensures f.Some? <==> ':' in line
  {
    if ':' in line then
      var h := SplitFirst(line, ':');
      Some(Field(NormaliseKey(h.before), Strip(h.after)))
    else None
  }

  /** The cut is at the first ':', so a value keeps every ':' after it. */
  lemma ParseLineCutsAtFirstColon(before: string, after: string)
    requires ':' !in before
    ensures ParseLine(before + ":" + after) == Some(Field(NormaliseKey(before), Strip(after)))
  {
    var line := before + ":" + after;
    assert line[|before|] == ':';
    assert forall j :: 0 <= j < |before| ==> line[j] == before[j];
    assert IndexOf(line, ':') == |before|;
    assert line[..|before|] == before;
    assert line[|before| + 1..] == after;
  }

  /** The line-by-line results, one per line. */
  function ParseAll(lines: seq<string>): (fields: seq<Option<Field>>)
    ensures |fields| == |lines|
    ensures forall i :: 0 <= i < |lines| ==> fields[i] == ParseLine(lines[i])
  {
    seq(|lines|, i requires 0 <= i < |lines| => ParseLine(lines[i]))
  }

  /** The dictionary the loop builds from the parsed lines: each stores its value under
      its key, so a later line overrides an earlier one. */
  function Store(fields: seq<Option<Field>>): map<string, string>
    decreases |fields|
  {
    if fields == [] then map[]
    else
      var m := Store(fields[..|fields| - 1]);
      match fields[|fields| - 1]
      case None => m
      case Some(f) => m[f.key := f.value]
  }

  /** The parsed line at i has key k. */
  predicate Defines(fields: seq<Option<Field>>, i: int, k: string)
    requires 0 <= i < |fields|
  {
    fields[i].Some? && fields[i].value.key == k
  }

  /** The keys of the dictionary are exactly the keys of the lines that hold ':'. */
  lemma {:induction false} StoredKeys(fields: seq<Option<Field>>, k: string)
    ensures k in Store(fields) <==> exists i :: 0 <= i < |fields| && Defines(fields, i, k)
    decreases |fields|
  {
    if fields != [] {
      var init := fields[..|fields| - 1];
      var last := fields[|fields| - 1];
      StoredKeys(init, k);
      if last.Some? && last.value.key == k {
        assert Defines(fields, |fields| - 1, k);
      }
      if last.Some? {
        assert Store(fields) == Store(init)[last.value.key := last.value.value];
      } else {
        assert Store(fields) == Store(init);
      }
      if k in Store(init) {
        var i :| 0 <= i < |init| && Defines(init, i, k);
        assert Defines(fields, i, k);
      }
      if exists i :: 0 <= i < |fields| && Defines(fields, i, k) {
        var i :| 0 <= i < |fields| && Defines(fields, i, k);
        if i < |init| {
          assert Defines(init, i, k);
        }
      }
    }
  }

  /** The value under a key is the one of the last line defining that key. */
  lemma {:induction false} LastLineWins(fields: seq<Option<Field>>, i: int)
    requires 0 <= i < |fields| && fields[i].Some?
    requires forall j :: i < j < |fields| ==> !Defines(fields, j, fields[i].value.key)
    ensures fields[i].value.key in Store(fields)
    ensures Store(fields)[fields[i].value.key] == fields[i].value.value
    decreases |fields|
  {
    var init := fields[..|fields| - 1];
    var last := fields[|fields| - 1];
    if last.Some? {
      assert Store(fields) == Store(init)[last.value.key := last.value.value];
    } else {
      assert Store(fields) == Store(init);
    }
    if i < |fields| - 1 {
      assert !Defines(fields, |fields| - 1, fields[i].value.key);
      forall j | i < j < |init|
        ensures !Defines(init, j, init[i].value.key)
      {
        assert !Defines(fields, j, fields[i].value.key);
      }
      LastLineWins(init, i);
    }
  }

  /** One more line extends the fold by that line's entry. */
  lemma StoreExtend(fields: seq<Option<Field>>, n: int)
    requires 0 <= n < |fields|
    ensures fields[n].None? ==> Store(fields[..n + 1]) == Store(fields[..n])
    ensures fields[n].Some? ==> Store(fields[..n + 1]) == Store(fields[..n])[fields[n].value.key := fields[n].value.value]
  {
    assert fields[..n + 1][..n] == fields[..n];
  }

  /** The dictionary built from a credential message. */
  function ParseMessage(text: string): map<string, string> {
    Store(ParseAll(SplitOn(Strip(text), '\n')))
  }

  /** process_credentials' loop over message.text.strip().split('\n'). */
  method ParseCredentials(text: string) returns (credentials: map<string, string>)
    ensures credentials == ParseMessage(text)
  {
    var lines := SplitOn(Strip(text), '\n');
    ghost var fields := ParseAll(lines);
    credentials := map[];
    for n := 0 to |lines|
      invariant credentials == Store(fields[..n])
    {
      var line := lines[n];
      StoreExtend(fields, n);
      if ':' in line {
        var h := SplitFirst(line, ':');
        var key := NormaliseKey(h.before);
        var value := Strip(h.after);
        credentials := credentials[key := value];
      }
    }
    assert fields[..|lines|] == fields;
  }

  // ---------------------------------------------------------------------------
  // The required fields (lines 69-74)

  const Required := ["api_key", "api_secret", "username", "password"]

  /** a can be obtained from b by deleting elements. */
  predicate IsSubsequence<T(==)>(a: seq<T>, b: seq<T>)
    decreases |b|
  {
    a == [] || (b != [] && ((a[0] == b[0] && IsSubsequence(a[1..], b[1..])) || IsSubsequence(a, b[1..])))
  }

  /** [field for field in fields if field not in credentials] */
  function Absent(fields: seq<string>, credentials: map<string, string>): (r: seq<string>)
    ensures forall f :: f in r <==> f in fields && f !in credentials
    ensures IsSubsequence(r, fields)
  {
    if fields == [] then []
    else if fields[0] !in credentials then [fields[0]] + Absent(fields[1..], credentials)
    else Absent(fields[1..], credentials)
  }

  /** The missing required fields, in the order api_key, api_secret, username, password. */
  function Missing(credentials: map<string, string>): (r: seq<string>)
    ensures forall f :: f in r <==> f in Required && f !in credentials
    ensures IsSubsequence(r, Required)
  {
    Absent(Required, credentials)
  }

  /** All four required keys were parsed. */
  predicate HasAllRequired(credentials: map<string, string>) {
    "api_key" in credentials && "api_secret" in credentials && "username" in credentials && "password" in credentials
  }

  /** Nothing is missing exactly when all four keys were parsed. */
  lemma NothingMissing(credentials: map<string, string>)
    ensures Missing(credentials) == [] <==> HasAllRequired(credentials)
  {
    if Missing(credentials) != [] {
      assert Missing(credentials)[0] in Missing(credentials);
    }
  }

  // ---------------------------------------------------------------------------
  // The user_credentials map

  /** The values of the 'waiting_for' key: None, 'credentials' or 'video'. */
  datatype WaitingFor = NotWaiting | ForCredentials | ForVideo

  /** The four fields a successful process_credentials stores. */
  datatype Credentials = Credentials(apiKey: string, apiSecret: string, username: string, password: string)

  /** One entry of user_credentials; `credentials` is None when the entry has no
      'api_key' (and then no other credential key either). */
  datatype Entry = Entry(waitingFor: WaitingFor, credentials: Option<Credentials>)

  /** What the handlers keep true of every entry: an entry waits for a video only when
      it holds credentials, and waits for credentials only when it holds none. */
  predicate EntryValid(e: Entry) {
    && (e.waitingFor == ForVideo ==> e.credentials.Some?)
    && (e.waitingFor == ForCredentials ==> e.credentials.None?)
  }

  predicate EntriesValid(entries: map<UserId, Entry>) {
    forall u :: u in entries ==> EntryValid(entries[u])
  }

  /** The test of upload_command (line 35): an entry holding 'api_key'. */
  predicate HasCredentials(entries: map<UserId, Entry>, user: UserId) {
    user in entries && entries[user].credentials.Some?
  }

  /** The test of handle_credentials (line 54). */
  predicate WaitsForCredentials(entries: map<UserId, Entry>, user: UserId) {
    user in entries && entries[user].waitingFor == ForCredentials
  }

  /** The test of handle_video (lines 112-114). */
  predicate WaitsForVideo(entries: map<UserId, Entry>, user: UserId) {
    user in entries && entries[user].waitingFor == ForVideo && entries[user].credentials.Some?
  }

  /** With the entries kept valid, handle_video's 'api_key' test never decides anything. */
  lemma VideoGateNeedsOnlyWaiting(entries: map<UserId, Entry>, user: UserId)
    requires EntriesValid(entries)
    ensures WaitsForVideo(entries, user) <==> user in entries && entries[user].waitingFor == ForVideo
  {
    if user in entries {
      assert EntryValid(entries[user]);
    }
  }

  /** /credentials (line 29): the whole entry becomes {'waiting_for': 'credentials'}. */
  function AfterCredentialsCommand(entries: map<UserId, Entry>, user: UserId): (r: map<UserId, Entry>)
    ensures r.Keys == entries.Keys + {user}
    ensures WaitsForCredentials(r, user) && !HasCredentials(r, user)
    ensures forall u :: u in entries && u != user ==> r[u] == entries[u]
    ensures EntriesValid(entries) ==> EntriesValid(r)
  {
    entries[user := Entry(ForCredentials, None)]
  }

  /** /upload (lines 35-48): sets only 'waiting_for' to 'video', and only for an entry
      holding credentials. */
  function AfterUploadCommand(entries: map<UserId, Entry>, user: UserId): (r: map<UserId, Entry>)
    ensures !HasCredentials(entries, user) ==> r == entries
    ensures HasCredentials(entries, user) ==>
      && r.Keys == entries.Keys
      && r[user].credentials == entries[user].credentials
      && WaitsForVideo(r, user)
      && forall u :: u in entries && u != user ==> r[u] == entries[u]
    ensures EntriesValid(entries) ==> EntriesValid(r)
  {
    if HasCredentials(entries, user) then entries[user := entries[user].(waitingFor := ForVideo)]
    else entries
  }

  /** The replies of process_credentials. */
  datatype CredentialReply =
    | MissingFields(fields: seq<string>)  // line 73
    | Saved                               // lines 94-97
    | AuthenticationFailed                // lines 99-102
    | ProcessingError                     // line 106

  /** The four parsed values. */
  function CredentialsOf(credentials: map<string, string>): Credentials
    requires HasAllRequired(credentials)
  {
    Credentials(credentials["api_key"], credentials["api_secret"], credentials["username"], credentials["password"])
  }

  /** The reply to a parsed block, given what authenticate() returned or raised. */
  function CredentialsReply(credentials: map<string, string>, auth: Outcome<bool>): (r: CredentialReply)
    ensures r.MissingFields? <==> Missing(credentials) != []
    ensures r.MissingFields? ==> r.fields == Missing(credentials)
    ensures r == Saved <==> Missing(credentials) == [] && auth == Done(true)
    ensures r == AuthenticationFailed <==> Missing(credentials) == [] && auth == Done(false)
    ensures r == ProcessingError <==> Missing(credentials) == [] && auth.Threw?
  {
    var missing := Missing(credentials);
    if missing != [] then MissingFields(missing)
    else match auth
      case Done(ok) => if ok then Saved else AuthenticationFailed
      case Threw(_) => ProcessingError
  }

  /** user_credentials after process_credentials: only a block that authenticates is
      stored, as exactly its four fields with 'waiting_for' None. */
  function AfterCredentials(entries: map<UserId, Entry>, user: UserId, credentials: map<string, string>, auth: Outcome<bool>)
    : (r: map<UserId, Entry>)
    ensures CredentialsReply(credentials, auth) != Saved ==> r == entries
    ensures CredentialsReply(credentials, auth) == Saved ==>
      && HasAllRequired(credentials)
      && r == entries[user := Entry(NotWaiting, Some(CredentialsOf(credentials)))]
    ensures EntriesValid(entries) ==> EntriesValid(r)
  {
    if CredentialsReply(credentials, auth) == Saved then
      NothingMissing(credentials);
      entries[user := Entry(NotWaiting, Some(CredentialsOf(credentials)))]
    else entries
  }

  // ---------------------------------------------------------------------------
  // handle_video (lines 108-207)

  /** The message's video: its size (None when Telegram gives none) and file name. */
  datatype VideoInfo = VideoInfo(fileSize: Option<nat>, fileName: Option<string>)

  /** Files above 4096 MB are refused (line 122). */
  const MaxVideoBytes := 4096 * VideoUpload.MiB

  /** The text upload_video returns when Dailymotion refuses the size. */
  const SizeErrorResult := "SIZE_ERROR"

  /** The replies of handle_video. */
  datatype VideoReply =
    | UseUploadFirst                                   // line 115
    | FileTooLarge                                     // line 123
    | SizeLimitExceeded                                // lines 169-173
    | UploadSuccessful(videoId: string, title: string, url: string) // lines 175-182
    | UploadFailed                                     // lines 184-191
    | UnexpectedError                                  // lines 204-207

  /** video.file_name or f"Video_{int(time.time())}" with `now` the clock in seconds. */
  function UploadTitle(fileName: Option<string>, now: nat): (title: string)
    ensures Truthy(fileName) ==> title == fileName.value
    ensures !Truthy(fileName) ==> title == "Video_" + NatToDecimal(now)
    ensures title != ""
  {
    if Truthy(fileName) then fileName.value else "Video_" + NatToDecimal(now)
  }

  /** The classification of upload_video's result (lines 168-191); `videoUrl` is what
      get_video_url returns, or raises, for a successful result. */
  function ResultReply(result: Option<string>, title: string, videoUrl: Outcome<string>): (r: VideoReply)
    ensures r == SizeLimitExceeded <==> result == Some(SizeErrorResult)
    ensures r.UploadSuccessful? <==> result != Some(SizeErrorResult) && Truthy(result) && videoUrl.Done?
    ensures r.UploadSuccessful? ==> r.videoId == result.value && r.title == title && r.url == videoUrl.value
    // a raising get_video_url reaches the handler's generic except
    ensures r == UnexpectedError <==> result != Some(SizeErrorResult) && Truthy(result) && videoUrl.Threw?
    ensures r == UploadFailed <==> !Truthy(result)
  {
    if result == Some(SizeErrorResult) then SizeLimitExceeded
    else if Truthy(result) then
      match videoUrl
      case Done(url) => UploadSuccessful(result.value, title, url)
      case Threw(_) => UnexpectedError
    else UploadFailed
  }

  /** The reply to a video. `prepare` is what the steps before upload_video raise, if
      anything: the first ProgressTracker, download_media, the DailymotionUploader and the
      second ProgressTracker (lines 137-156). `upload` is what upload_video returns or
      raises, and `videoUrl` what get_video_url returns or raises. */
  function VideoReplyFor(entries: map<UserId, Entry>, user: UserId, video: VideoInfo, now: nat,
                         prepare: Outcome<()>, upload: Outcome<Option<string>>, videoUrl: Outcome<string>): (r: VideoReply)
    ensures r == UseUploadFirst <==> !WaitsForVideo(entries, user)
    ensures r == FileTooLarge <==>
      WaitsForVideo(entries, user) && video.fileSize.Some? && video.fileSize.value > MaxVideoBytes
    ensures WaitsForVideo(entries, user) && video.fileSize.Some? && video.fileSize.value <= MaxVideoBytes ==>
      r == (if prepare.Threw? || upload.Threw? then UnexpectedError
            else ResultReply(upload.value, UploadTitle(video.fileName, now), videoUrl))
    ensures WaitsForVideo(entries, user) && video.fileSize.None? ==> r == UnexpectedError
  {
    if !WaitsForVideo(entries, user) then UseUploadFirst
    else match video.fileSize
      case None => UnexpectedError
      case Some(size) =>
        if size > MaxVideoBytes then FileTooLarge
        else if prepare.Threw? || upload.Threw? then UnexpectedError
        else ResultReply(upload.value, UploadTitle(video.fileName, now), videoUrl)
  }

  /** Once the download has started, 'waiting_for' is reset whatever happens (line 200). */
  function AfterVideo(entries: map<UserId, Entry>, user: UserId, video: VideoInfo): (r: map<UserId, Entry>)
    ensures !(WaitsForVideo(entries, user) && video.fileSize.Some? && video.fileSize.value <= MaxVideoBytes) ==>
      r == entries
    ensures WaitsForVideo(entries, user) && video.fileSize.Some? && video.fileSize.value <= MaxVideoBytes ==>
      && r.Keys == entries.Keys
      && r[user] == Entry(NotWaiting, entries[user].credentials)
      && forall u :: u in entries && u != user ==> r[u] == entries[u]
    ensures EntriesValid(entries) ==> EntriesValid(r)
  {
    if WaitsForVideo(entries, user) && video.fileSize.Some? && video.fileSize.value <= MaxVideoBytes then
      entries[user := entries[user].(waitingFor := NotWaiting)]
    else entries
  }

  // ---------------------------------------------------------------------------
  // Properties across handlers

  /** /credentials discards the saved credentials: an /upload right after it is refused
      and leaves the map as it is. */
  lemma CredentialsCommandRevokesUpload(entries: map<UserId, Entry>, user: UserId)
    ensures !HasCredentials(AfterCredentialsCommand(entries, user), user)
    ensures AfterUploadCommand(AfterCredentialsCommand(entries, user), user) == AfterCredentialsCommand(entries, user)
  {
  }

  /** After a block that authenticates, /upload makes the next video be processed. */
  lemma SavedThenUploadAcceptsVideo(entries: map<UserId, Entry>, user: UserId, credentials: map<string, string>)
    requires CredentialsReply(credentials, Done(true)) == Saved
    ensures WaitsForVideo(AfterUploadCommand(AfterCredentials(entries, user, credentials, Done(true)), user), user)
  {
  }

  /** A processed video ends the wait: a second video without a new /upload is refused. */
  lemma SecondVideoNeedsUpload(entries: map<UserId, Entry>, user: UserId, video: VideoInfo, next: VideoInfo, now: nat,
                               prepare: Outcome<()>, upload: Outcome<Option<string>>, videoUrl: Outcome<string>)
    requires WaitsForVideo(entries, user) && video.fileSize.Some? && video.fileSize.value <= MaxVideoBytes
    ensures VideoReplyFor(AfterVideo(entries, user, video), user, next, now, prepare, upload, videoUrl) == UseUploadFirst
  {
  }

  /** The user_credentials map and the handlers that read and update it. */
  class CredentialStore {
    var entries: map<UserId, Entry>

    ghost predicate Valid()
      reads this
    {
      EntriesValid(entries)
    }

    /** The map starts from entries created elsewhere in the program. */
    constructor (initial: map<UserId, Entry>)
      requires EntriesValid(initial)
      ensures entries == initial && Valid()
    {
      entries := initial;
    }

    /** credentials_command (lines 10-29). */
    method CredentialsCommand(user: UserId)
      requires Valid()
      modifies this
      ensures entries == AfterCredentialsCommand(old(entries), user)
      ensures Valid()
    {
      entries := entries[user := Entry(ForCredentials, None)];
    }

    /** upload_command (lines 31-48); `ready` tells which reply is sent. */
    method UploadCommand(user: UserId) returns (ready: bool)
      requires Valid()
      modifies this
      ensures ready <==> HasCredentials(old(entries), user)
      ensures entries == AfterUploadCommand(old(entries), user)
      ensures Valid()
    {
      if user !in entries || entries[user].credentials.None? {
        return false;
      }
      entries := entries[user := entries[user].(waitingFor := ForVideo)];
      ready := true;
    }

    /** handle_credentials (lines 50-55): the text is processed only while the entry
        waits for credentials; otherwise nothing is replied. */
    method HandleCredentials(user: UserId, text: string, auth: Outcome<bool>) returns (reply: Option<CredentialReply>)
      requires Valid()
      modifies this
      ensures !WaitsForCredentials(old(entries), user) ==> reply == None && entries == old(entries)
      ensures WaitsForCredentials(old(entries), user) ==>
        var credentials := ParseMessage(text);
        && reply == Some(CredentialsReply(credentials, auth))
        && entries == AfterCredentials(old(entries), user, credentials, auth)
      ensures Valid()
    {
      if user in entries && entries[user].waitingFor == ForCredentials {
        var r := ProcessCredentials(user, text, auth);
        reply := Some(r);
      } else {
        reply := None;
      }
    }

    /** process_credentials (lines 57-106); `auth` is what the uploader's authenticate()
        returned or raised. */
    method ProcessCredentials(user: UserId, text: string, auth: Outcome<bool>) returns (reply: CredentialReply)
      requires Valid()
      modifies this
      ensures
        var credentials := ParseMessage(text);
        && reply == CredentialsReply(credentials, auth)
        && entries == AfterCredentials(old(entries), user, credentials, auth)
      ensures Valid()
    {
      var credentials := ParseCredentials(text);
      var missing := Absent(Required, credentials);
      if missing != [] {
        return MissingFields(missing);
      }
      NothingMissing(credentials);
      match auth
      case Threw(_) =>
        reply := ProcessingError;
      case Done(ok) =>
        if ok {
          entries := entries[user := Entry(NotWaiting, Some(CredentialsOf(credentials)))];
          reply := Saved;
        } else {
          reply := AuthenticationFailed;
        }
    }

    /** handle_video (lines 108-207); `now` is time.time() in whole seconds, `prepare`
        what the steps before upload_video raised (if anything), `upload` what
        upload_video returned or raised and `videoUrl` what get_video_url returned or
        raised. */
    method HandleVideo(user: UserId, video: VideoInfo, now: nat, prepare: Outcome<()>,
                       upload: Outcome<Option<string>>, videoUrl: Outcome<string>)
      returns (reply: VideoReply)
      requires Valid()
      modifies this
      ensures reply == VideoReplyFor(old(entries), user, video, now, prepare, upload, videoUrl)
      ensures entries == AfterVideo(old(entries), user, video)
      ensures Valid()
    {
      if user !in entries || entries[user].waitingFor != ForVideo || entries[user].credentials.None? {
        return UseUploadFirst;
      }
      if video.fileSize.None? {
        return UnexpectedError;
      }
      if video.fileSize.value > MaxVideoBytes {
        return FileTooLarge;
      }
      var title := UploadTitle(video.fileName, now);
      if prepare.Threw? {
        reply := UnexpectedError;
      } else if upload.Threw? {
        reply := UnexpectedError;
      } else {
        var result := upload.value;
        if result == Some(SizeErrorResult) {
          reply := SizeLimitExceeded;
        } else if Truthy(result) {
          if videoUrl.Threw? {
            reply := UnexpectedError;
          } else {
            reply := UploadSuccessful(result.value, title, videoUrl.value);
          }
        } else {
          reply := UploadFailed;
        }
      }
      entries := entries[user := entries[user].(waitingFor := NotWaiting)];
    }
  }
}

=== FILE: sessions.dfy ===
/** The per-user conversation of main.py's TelegramDailymotionBot: /start creates a
    session, each text message fills one credential field and moves the step on, and
    save_sessions writes a copy of the sessions without the transient video message. */
module Sessions {
  import opened Values
  import opened Text
  import opened Uploader

  /** The values the code stores under the 'step' key. */
  datatype Step = WaitingApiKey | WaitingApiSecret | WaitingUsername | WaitingPassword | Authenticated

  /** One value of user_sessions: the 'step', the four credential keys (absent = None),
      the 'channels' dict and the transient 'video_message' key. */
  datatype Session = Session(
    step: Step,
    apiKey: Option<string>,
    apiSecret: Option<string>,
    username: Option<string>,
    password: Option<string>,
    channels: map<string, string>,
    videoMessage: Option<int>)

  /** {'step': 'waiting_api_key', 'channels': {}} */
  const NewSession := Session(WaitingApiKey, None, None, None, None, map[], None)

  /** The credential keys a session holds are exactly those its step has collected. */
  predicate WellFormed(s: Session) {
    match s.step
    case WaitingApiKey =>
      s.apiKey.None? && s.apiSecret.None? && s.username.None? && s.password.None?
    case WaitingApiSecret =>
      s.apiKey.Some? && s.apiSecret.None? && s.username.None? && s.password.None?
    case WaitingUsername =>
      s.apiKey.Some? && s.apiSecret.Some? && s.username.None? && s.password.None?
    case WaitingPassword =>
      s.apiKey.Some? && s.apiSecret.Some? && s.username.Some? && s.password.None?
    case Authenticated =>
      s.apiKey.Some? && s.apiSecret.Some? && s.username.Some? && s.password.Some?
  }

  predicate AllWellFormed(sessions: map<UserId, Session>) {
    forall u :: u in sessions ==> WellFormed(sessions[u])
  }

  // ---------------------------------------------------------------------------
  // start_command

  /** user_sessions after /start (main.py:266-267). */
  function Started(sessions: map<UserId, Session>, user: UserId): (r: map<UserId, Session>)
    ensures r.Keys == sessions.Keys + {user}
    ensures user in sessions ==> r == sessions
    ensures user !in sessions ==> r[user] == NewSession
    ensures forall u :: u in sessions ==> r[u] == sessions[u]
  {
    if user in sessions then sessions else sessions[user := NewSession]
  }

  /** A repeated /start changes nothing. */
  lemma StartIdempotent(sessions: map<UserId, Session>, user: UserId)
    ensures Started(Started(sessions, user), user) == Started(sessions, user)
  {
  }

  // ---------------------------------------------------------------------------
  // handle_message

  /** The session after one credential step has stored `value` (main.py:307-321). */
  function Store(s: Session, value: string): Session {
    match s.step
    case WaitingApiKey => s.(apiKey := Some(value), step := WaitingApiSecret)
    case WaitingApiSecret => s.(apiSecret := Some(value), step := WaitingUsername)
    case WaitingUsername => s.(username := Some(value), step := WaitingPassword)
    case WaitingPassword => s.(password := Some(value), step := Authenticated)
    case Authenticated => s
  }

  /** user_sessions after a message (main.py:302-321). An unknown user gets a fresh {}
      that is never stored and reads as step 'authenticated'; that step matches no
      branch. A message without text raises on .strip() before anything is stored. */
  function AfterMessage(sessions: map<UserId, Session>, user: UserId, text: Option<string>): (r: map<UserId, Session>)
    ensures r.Keys == sessions.Keys
    ensures forall u :: u in sessions && u != user ==> r[u] == sessions[u]
    ensures user !in sessions || sessions[user].step == Authenticated || text.None? ==> r == sessions
    ensures user in sessions && sessions[user].step == WaitingPassword && text.Some? ==>
      r[user].step == Authenticated && r[user].password == Some(Strip(text.value))
  {
    if user in sessions && sessions[user].step != Authenticated && text.Some? then
      sessions[user := Store(sessions[user], Strip(text.value))]
    else
      sessions
  }

  /** A message keeps every session well formed. */
  lemma MessageKeepsWellFormed(sessions: map<UserId, Session>, user: UserId, text: Option<string>)
    requires AllWellFormed(sessions)
    ensures AllWellFormed(AfterMessage(sessions, user, text))
  {
  }

  /** /start keeps every session well formed. */
  lemma StartKeepsWellFormed(sessions: map<UserId, Session>, user: UserId)
    requires AllWellFormed(sessions)
    ensures AllWellFormed(Started(sessions, user))
  {
  }

  /** Four text messages sent from 'waiting_api_key' store the four stripped texts in
      order and end in 'authenticated'; no other field and no other user changes. */
  lemma FourMessagesAuthenticate(sessions: map<UserId, Session>, user: UserId, key: string, secret: string, name: string, pass: string)
    requires user in sessions && sessions[user].step == WaitingApiKey
    ensures
      var s1 := AfterMessage(sessions, user, Some(key));
      var s2 := AfterMessage(s1, user, Some(secret));
      var s3 := AfterMessage(s2, user, Some(name));
      AfterMessage(s3, user, Some(pass))
        == sessions[user := sessions[user].(
             step := Authenticated,
             apiKey := Some(Strip(key)),
             apiSecret := Some(Strip(secret)),
             username := Some(Strip(name)),
             password := Some(Strip(pass)))]
  {
    var s1 := AfterMessage(sessions, user, Some(key));
    assert s1[user].step == WaitingApiSecret;
    var s2 := AfterMessage(s1, user, Some(secret));
    assert s2[user].step == WaitingUsername;
    var s3 := AfterMessage(s2, user, Some(name));
    assert s3[user].step == WaitingPassword;
  }

  /** user_sessions after a series of messages from one user. */
  function AfterMessages(sessions: map<UserId, Session>, user: UserId, texts: seq<Option<string>>): map<UserId, Session>
    decreases |texts|
  {
    if texts == [] then sessions else AfterMessages(AfterMessage(sessions, user, texts[0]), user, texts[1..])
  }

  /** 'authenticated' is final for text messages: there is no reset, so no later message
      changes user_sessions at all. */
  lemma {:induction false} AuthenticatedIsFinal(sessions: map<UserId, Session>, user: UserId, texts: seq<Option<string>>)
    requires user in sessions && sessions[user].step == Authenticated
    ensures AfterMessages(sessions, user, texts) == sessions
    decreases |texts|
  {
    if texts != [] {
      AuthenticatedIsFinal(AfterMessage(sessions, user, texts[0]), user, texts[1..]);
    }
  }

  /** Messages from a user without a session never create one. */
  lemma {:induction false} UnknownUserStaysUnknown(sessions: map<UserId, Session>, user: UserId, texts: seq<Option<string>>)
    requires user !in sessions
    ensures AfterMessages(sessions, user, texts) == sessions
    decreases |texts|
  {
    if texts != [] {
      UnknownUserStaysUnknown(AfterMessage(sessions, user, texts[0]), user, texts[1..]);
    }
  }

  // ---------------------------------------------------------------------------
  // save_sessions

  /** The comprehension of main.py:248: every session copied without 'video_message'. */
  function PersistAll(sessions: map<UserId, Session>): (r: map<UserId, Session>)
    ensures r.Keys == sessions.Keys
    ensures forall u :: u in r ==> r[u].videoMessage.None?
  {
    map u | u in sessions :: sessions[u].(videoMessage := None)
  }

  /** Every key other than 'video_message' is copied with its value. */
  lemma PersistKeepsOtherKeys(sessions: map<UserId, Session>, user: UserId)
    requires user in sessions
    ensures var p := PersistAll(sessions)[user]; var s := sessions[user];
      && p.step == s.step && p.channels == s.channels
      && p.apiKey == s.apiKey && p.apiSecret == s.apiSecret
      && p.username == s.username && p.password == s.password
  {
  }

  /** Filtering a saved copy again changes nothing. */
  lemma PersistIdempotent(sessions: map<UserId, Session>)
    ensures PersistAll(PersistAll(sessions)) == PersistAll(sessions)
  {
  }

  /** Sessions without a video message are written as they are. */
  lemma PersistWithoutVideoMessage(sessions: map<UserId, Session>)
    requires forall u :: u in sessions ==> sessions[u].videoMessage.None?
    ensures PersistAll(sessions) == sessions
  {
    forall u | u in sessions
      ensures PersistAll(sessions)[u] == sessions[u]
    {
      assert sessions[u].(videoMessage := None) == sessions[u];
    }
  }

  // ---------------------------------------------------------------------------
  // the bot object

  /** The reply sent after a stored credential. */
  datatype Reply = ApiKeySaved | ApiSecretSaved | UsernameSaved | AuthenticationSuccessful

  /** How handle_message ends: with a reply, without one, or by raising. */
  datatype MessageOutcome = Replied(reply: Reply) | NoReply | Failed(error: string)

  /** What .strip() on a message without text raises. */
  const NoTextError := "'NoneType' object has no attribute 'strip'"

  /** The reply of a credential step. */
  function StepReply(step: Step): Reply {
    match step
    case WaitingApiKey => ApiKeySaved
    case WaitingApiSecret => ApiSecretSaved
    case WaitingUsername => UsernameSaved
    case _ => AuthenticationSuccessful
  }

  /** The parts of TelegramDailymotionBot that start_command, handle_message and
      save_sessions touch: the sessions, the session file's content (None: not yet
      written) and the one uploader shared by all users. */
  class Bot {
    var userSessions: map<UserId, Session>
    var sessionFile: Option<map<UserId, Session>>
    const uploader: DailymotionUploader

    ghost predicate Valid()
      reads this
    {
      AllWellFormed(userSessions)
    }

    constructor ()
      ensures Valid() && fresh(uploader)
      ensures userSessions == map[] && sessionFile == None
      ensures uploader.accessToken == None
    {
      userSessions := map[];
      sessionFile := None;
      uploader := new DailymotionUploader();
    }

    /** save_sessions (main.py:246-253): the file receives the filtered copy. */
    method SaveSessions()
      modifies this`sessionFile
      ensures sessionFile == Some(PersistAll(userSessions))
    {
      sessionFile := Some(PersistAll(userSessions));
    }

    /** start_command (main.py:264-275). */
    method StartCommand(user: UserId)
      requires Valid()
      modifies this`userSessions, this`sessionFile
      ensures Valid()
      ensures userSessions == Started(old(userSessions), user)
      ensures sessionFile == Some(PersistAll(userSessions))
    {
      if user !in userSessions {
        userSessions := userSessions[user := NewSession];
      }
      SaveSessions();
    }

    /** handle_message (main.py:302-328). `tokenAnswer` is what the token endpoint would
        answer if get_access_token sends a request. The password step moves to
        'authenticated' and replies success whatever that answer is; when the request
        raises, the stored session stays changed but nothing is replied or saved. */
    method HandleMessage(user: UserId, text: Option<string>, tokenAnswer: Response<TokenBody>)
      returns (out: MessageOutcome)
      requires Valid()
      modifies this`userSessions, this`sessionFile, uploader
      ensures Valid()
      ensures userSessions == AfterMessage(old(userSessions), user, text)
      ensures !(user in old(userSessions) && old(userSessions)[user].step != Authenticated) ==>
        out == NoReply && sessionFile == Some(PersistAll(userSessions)) && unchanged(uploader)
      ensures user in old(userSessions) && old(userSessions)[user].step != Authenticated && text.None? ==>
        out == Failed(NoTextError) && sessionFile == old(sessionFile) && unchanged(uploader)
      ensures user in old(userSessions) && old(userSessions)[user].step in {WaitingApiKey, WaitingApiSecret, WaitingUsername}
              && text.Some? ==>
        out == Replied(StepReply(old(userSessions)[user].step))
        && sessionFile == Some(PersistAll(userSessions)) && unchanged(uploader)
      ensures user in old(userSessions) && old(userSessions)[user].step == WaitingPassword && text.Some? ==>
        var s := userSessions[user];
        var f := FetchToken(old(uploader.accessToken), tokenAnswer);
        && uploader.apiKey == s.apiKey && uploader.apiSecret == s.apiSecret
        && uploader.username == s.username && uploader.password == s.password
        && uploader.accessToken == f.cache
        && (f.result.Threw? ==> out == Failed(f.result.error) && sessionFile == old(sessionFile))
        && (f.result.Done? ==> out == Replied(AuthenticationSuccessful) && sessionFile == Some(PersistAll(userSessions)))
    {
      if !(user in userSessions && userSessions[user].step != Authenticated) {
        SaveSessions();
        return NoReply;
      }
      var session := userSessions[user];
      if text.None? {
        return Failed(NoTextError);
      }
      var value := Strip(text.value);
      if session.step == WaitingApiKey {
        userSessions := userSessions[user := session.(apiKey := Some(value), step := WaitingApiSecret)];
        out := Replied(ApiKeySaved);
      } else if session.step == WaitingApiSecret {
        userSessions := userSessions[user := session.(apiSecret := Some(value), step := WaitingUsername)];
        out := Replied(ApiSecretSaved);
      } else if session.step == WaitingUsername {
        userSessions := userSessions[user := session.(username := Some(value), step := WaitingPassword)];
        out := Replied(UsernameSaved);
      } else {
        session := session.(password := Some(value), step := Authenticated);
        userSessions := userSessions[user := session];
        uploader.apiKey := session.apiKey;
        uploader.apiSecret := session.apiSecret;
        uploader.username := session.username;
        uploader.password := session.password;
        var token, _ := uploader.GetAccessToken(tokenAnswer);
        if token.Threw? {
          return Failed(token.error);
        }
        out := Replied(AuthenticationSuccessful);
      }
      SaveSessions();
    }
  }
}

=== FILE: text.dfy ===
/** The string operations the bot relies on, restricted to ASCII:
    str.strip(), str.lower(), str.split(sep), str.split(sep, 1), str.replace,
    substring tests (`x in s`) and str.endswith. */
module Text {

  /** Python's str.isspace() on ASCII: space, \t \n \v \f \r and the separators 0x1C-0x1F. */
  predicate IsSpace(c: char) {
    c == ' ' || ('\t' <= c <= '\r') || ('\U{1C}' <= c <= '\U{1F}')
  }

  /** Drops leading whitespace. */
  function TrimStart(s: string): (r: string)
    ensures |r| <= |s| && r == s[|s| - |r|..]
    ensures r == [] || !IsSpace(r[0])
    ensures forall i :: 0 <= i < |s| - |r| ==> IsSpace(s[i])
  {
    if s != [] && IsSpace(s[0]) then TrimStart(s[1..]) else s
  }

  /** Drops trailing whitespace. */
  function TrimEnd(s: string): (r: string)
    ensures |r| <= |s| && r == s[..|r|]
    ensures r == [] || !IsSpace(r[|r| - 1])
    ensures forall i :: |r| <= i < |s| ==> IsSpace(s[i])
  {
    if s != [] && IsSpace(s[|s| - 1]) then TrimEnd(s[..|s| - 1]) else s
  }

  /** Python's str.strip() with no argument. */
  function Strip(s: string): (r: string)
    ensures |r| <= |s|
    ensures r == [] || (!IsSpace(r[0]) && !IsSpace(r[|r| - 1]))
  {
    TrimEnd(TrimStart(s))
  }

  /** A string that neither starts nor ends with whitespace is its own strip. */
  lemma StripKeeps(s: string)
    requires s == [] || (!IsSpace(s[0]) && !IsSpace(s[|s| - 1]))
    ensures Strip(s) == s
  {
  }

  /** Stripping twice is stripping once. */
  lemma StripIdempotent(s: string)
    ensures Strip(Strip(s)) == Strip(s)
  {
    StripKeeps(Strip(s));
  }

  /** Lower-cases an ASCII capital; every other character, whitespace included, is kept. */
  function LowerChar(c: char): (r: char)
    ensures !('A' <= r <= 'Z')
    ensures r == c || 'A' <= c <= 'Z'
    ensures IsSpace(r) <==> IsSpace(c)
  {
    if 'A' <= c <= 'Z' then (c as int - 'A' as int + 'a' as int) as char else c
  }

  /** Python's str.lower() on ASCII letters; every other character is kept. */
  function Lower(s: string): (r: string)
    ensures |r| == |s|
    ensures forall i :: 0 <= i < |s| ==> r[i] == LowerChar(s[i])
  {
    seq(|s|, i requires 0 <= i < |s| => LowerChar(s[i]))
  }

  /** Text without capitals is its own lower-case form. */
  lemma LowerKeeps(s: string)
    requires forall i :: 0 <= i < |s| ==> !('A' <= s[i] <= 'Z')
    ensures Lower(s) == s
  {
  }

  /** Lower-casing commutes with taking a suffix. */
  lemma LowerSuffix(s: string, j: int)
    requires 0 <= j <= |s|
    ensures Lower(s[j..]) == Lower(s)[j..]
  {
  }

  /** Python's str.replace(from, to) for single characters. */
  function ReplaceChar(s: string, from: char, to: char): (r: string)
    ensures |r| == |s|
    ensures forall i :: 0 <= i < |s| ==> r[i] == if s[i] == from then to else s[i]
  {
    seq(|s|, i requires 0 <= i < |s| => if s[i] == from then to else s[i])
  }

  /** Replacing a character the text lacks changes nothing. */
  lemma ReplaceAbsent(s: string, from: char, to: char)
    requires from !in s
    ensures ReplaceChar(s, from, to) == s
  {
  }

  /** Position of the first occurrence of c. */
  function IndexOf(s: string, c: char): (i: nat)
    requires c in s
    ensures i < |s| && s[i] == c && c !in s[..i]
    ensures forall j :: 0 <= j < i ==> s[j] != c
  {
    if s[0] == c then 0 else 1 + IndexOf(s[1..], c)
  }

  /** Position of the last occurrence of c, or -1 (Python's str.rfind). */
  function LastIndexOf(s: string, c: char): (i: int)
    ensures -1 <= i < |s|
    ensures i == -1 ==> c !in s
    ensures 0 <= i ==> s[i] == c
    ensures forall k :: i < k < |s| ==> s[k] != c
  {
    if s == [] then -1
    else if s[|s| - 1] == c then |s| - 1
    else LastIndexOf(s[..|s| - 1], c)
  }

  /** Python's str.split(sep) for a one-character separator: always at least one
      part, and no part holds the separator. */
  function SplitOn(s: string, sep: char): (parts: seq<string>)
    ensures |parts| >= 1
    ensures forall k :: 0 <= k < |parts| ==> sep !in parts[k]
    decreases |s|
  {
    if sep in s then
      var i := IndexOf(s, sep);
      [s[..i]] + SplitOn(s[i + 1..], sep)
    else
      [s]
  }

  /** Python's sep.join(parts) for a one-character separator. */
  function JoinWith(parts: seq<string>, sep: char): string {
    if parts == [] then ""
    else if |parts| == 1 then parts[0]
    else parts[0] + [sep] + JoinWith(parts[1..], sep)
  }

  /** Splitting and joining again gives back the text. */
  lemma {:induction false} JoinSplitOn(s: string, sep: char)
    ensures JoinWith(SplitOn(s, sep), sep) == s
    decreases |s|
  {
    if sep in s {
      var i := IndexOf(s, sep);
      var rest := SplitOn(s[i + 1..], sep);
      JoinSplitOn(s[i + 1..], sep);
      assert SplitOn(s, sep) == [s[..i]] + rest;
      assert s == s[..i] + [sep] + s[i + 1..];
    }
  }

  /** The two halves of Python's line.split(sep, 1) on a line that holds sep. */
  datatype Halves = Halves(before: string, after: string)

  /** Python's s.split(sep, 1) when sep occurs in s: cut at the FIRST separator. */
  function SplitFirst(s: string, sep: char): (h: Halves)
    requires sep in s
    ensures h.before + [sep] + h.after == s
    ensures sep !in h.before
  {
    var i := IndexOf(s, sep);
    assert s == s[..i] + [sep] + s[i + 1..];
    Halves(s[..i], s[i + 1..])
  }

  /** t occurs in s starting at position i. */
  predicate OccursAt(s: string, t: string, i: int) {
    0 <= i && i + |t| <= |s| && s[i..i + |t|] == t
  }

  /** Python's `t in s` for strings. */
  predicate Contains(s: string, t: string) {
    exists i :: 0 <= i <= |s| - |t| && OccursAt(s, t, i)
  }

  /** A prefix occurs in the text that starts with it. */
  lemma ContainsPrefix(s: string, t: string)
    requires |t| <= |s| && s[..|t|] == t
    ensures Contains(s, t)
  {
    assert OccursAt(s, t, 0);
  }

  /** A suffix occurs in the text that ends with it. */
  lemma ContainsSuffix(s: string, t: string)
    ensures Contains(s + t, t)
  {
    assert (s + t)[|s|..|s| + |t|] == t;
    assert OccursAt(s + t, t, |s|);
  }

  /** t cannot occur in s when s lacks one of t's characters. */
  lemma MissingCharNotContained(s: string, t: string, c: char)
    requires c in t && c !in s
    ensures !Contains(s, t)
  {
    var j :| 0 <= j < |t| && t[j] == c;
    forall i | 0 <= i <= |s| - |t|
      ensures !OccursAt(s, t, i)
    {
      assert s[i..i + |t|][j] == s[i + j];
      assert s[i + j] in s;
    }
  }

  /** Python's s.endswith(t). */
  predicate EndsWith(s: string, t: string) {
    |t| <= |s| && s[|s| - |t|..] == t
  }

  /** The number a string of decimal digits denotes. */
  function DecimalValue(s: string): nat
    requires forall i :: 0 <= i < |s| ==> '0' <= s[i] <= '9'
  {
    if s == [] then 0 else 10 * DecimalValue(s[..|s| - 1]) + (s[|s| - 1] as int - '0' as int)
  }

  /** Decimal digits of n, as Python's str(n) writes them: they denote n, and there is
      no leading zero. */
  function NatToDecimal(n: nat): (r: string)
    ensures r != []
    ensures forall i :: 0 <= i < |r| ==> '0' <= r[i] <= '9'
    ensures DecimalValue(r) == n
    ensures |r| > 1 ==> r[0] != '0'
  {
    var d := ('0' as int + n % 10) as char;
    if n < 10 then [d]
    else
      var r := NatToDecimal(n / 10) + [d];
      assert r[..|r| - 1] == NatToDecimal(n / 10);
      r
  }
}

=== FILE: uploader.dfy ===
/** The token cache and the endpoint fallback loops of main.py's DailymotionUploader.
    HTTP traffic is abstracted: each request's answer is given as an oracle. */
module Uploader {
  import opened Values
  import opened Text

  const ApiUrl := "https://api.dailymotion.com"
  const UploadEndpoints := [ApiUrl + "/file/upload", ApiUrl + "/upload"]
  const VideoEndpoints := [ApiUrl + "/me/videos", ApiUrl + "/videos"]

  /** The answer to one request: the request, or decoding its JSON body, raised;
      or a status code together with the decoded body. */
  datatype Response<B> = Raised(error: string) | Answer(status: int, body: B)

  /** The fields read from a token answer: data.get('access_token'). */
  datatype TokenBody = TokenBody(accessToken: Option<string>)
  /** The fields read from an upload-slot answer: 'upload_url' and 'progress_url'. */
  datatype SlotBody = SlotBody(uploadUrl: Option<string>, progressUrl: Option<string>)
  /** The fields read from a video-creation answer: 'id', and error.message on a 403. */
  datatype VideoBody = VideoBody(id: Option<string>, errorMessage: Option<string>)

  /** One logger.error line written for an endpoint that failed. */
  datatype LogEntry = EndpointError(endpoint: string, error: string)

  // ---------------------------------------------------------------------------
  // get_access_token

  /** What one get_access_token call does: whether a token request is sent,
      what the call returns (or raises) and the cached access_token afterwards. */
  datatype TokenFetch = TokenFetch(requested: bool, result: Outcome<Option<string>>, cache: Option<string>)

  function FetchToken(cached: Option<string>, answer: Response<TokenBody>): (f: TokenFetch)
    ensures f.requested <==> !Truthy(cached)
    ensures !f.requested ==> f.result == Done(cached) && f.cache == cached
    // a truthy token handed back is always the one left in the cache
    ensures f.result.Done? && Truthy(f.result.value) ==> f.cache == f.result.value
    // a failed request never touches the cache
    ensures f.result.Threw? ==> f.cache == cached && answer.Raised?
    // a 200 answer returns and caches data.get('access_token')
    ensures f.requested && answer.Answer? && answer.status == 200 ==>
      f.result == Done(answer.body.accessToken) && f.cache == answer.body.accessToken
    // any other status returns None and leaves the cache alone
    ensures f.requested && answer.Answer? && answer.status != 200 ==> f.result == Done(None) && f.cache == cached
    // an exception of the request propagates
    ensures f.requested && answer.Raised? ==> f.result == Threw(answer.error)
  {
    if Truthy(cached) then TokenFetch(false, Done(cached), cached)
    else match answer
      case Raised(e) => TokenFetch(true, Threw(e), cached)
      case Answer(status, body) =>
        if status == 200 then TokenFetch(true, Done(body.accessToken), body.accessToken)
        else TokenFetch(true, Done(None), cached)
  }

  /** The cache after a series of get_access_token calls answered in turn by `answers`. */
  function CacheAfter(cached: Option<string>, answers: seq<Response<TokenBody>>): Option<string>
    decreases |answers|
  {
    if answers == [] then cached else CacheAfter(FetchToken(cached, answers[0]).cache, answers[1..])
  }

  /** How many token requests those calls send. */
  function RequestsSent(cached: Option<string>, answers: seq<Response<TokenBody>>): nat
    decreases |answers|
  {
    if answers == [] then 0
    else
      var f := FetchToken(cached, answers[0]);
      (if f.requested then 1 else 0) + RequestsSent(f.cache, answers[1..])
  }

  /** Once a truthy token is cached it is never requested again nor replaced,
      whatever the server would answer (there is no expiry handling). */
  lemma {:induction false} CachedTokenIsFinal(cached: Option<string>, answers: seq<Response<TokenBody>>)
    requires Truthy(cached)
    ensures CacheAfter(cached, answers) == cached
    ensures RequestsSent(cached, answers) == 0
    decreases |answers|
  {
    if answers != [] {
      CachedTokenIsFinal(cached, answers[1..]);
    }
  }

  /** Without a cached token, every call sends a request until one is answered
      200 with a truthy token; so an answer sequence that never does so costs one
      request per call. */
  lemma {:induction false} NoTokenMeansRequestEveryCall(cached: Option<string>, answers: seq<Response<TokenBody>>)
    requires !Truthy(cached)
    requires forall i :: 0 <= i < |answers| ==>
      !(answers[i].Answer? && answers[i].status == 200 && Truthy(answers[i].body.accessToken))
    ensures RequestsSent(cached, answers) == |answers|
    ensures !Truthy(CacheAfter(cached, answers))
    decreases |answers|
  {
    if answers != [] {
      var f := FetchToken(cached, answers[0]);
      assert !Truthy(f.cache);
      NoTokenMeansRequestEveryCall(f.cache, answers[1..]);
    }
  }

  // ---------------------------------------------------------------------------
  // the endpoint loops

  predicate Accepts<B>(r: Response<B>, ok: int -> bool) {
    r.Answer? && ok(r.status)
  }

  /** get_upload_url stops at a 200 answer. */
  predicate SlotAccepted(status: int) { status == 200 }
  /** create_video stops at a 200 or 201 answer. */
  predicate VideoCreated(status: int) { status == 200 || status == 201 }

  /** Index of the first endpoint whose answer is accepted, or |endpoints| when none is. */
  function FirstAccepted<B>(endpoints: seq<string>, answer: string -> Response<B>, ok: int -> bool): (k: nat)
    ensures k <= |endpoints|
    ensures forall i :: 0 <= i < k ==> !Accepts(answer(endpoints[i]), ok)
    ensures k < |endpoints| ==> Accepts(answer(endpoints[k]), ok)
  {
    if endpoints == [] then 0
    else if Accepts(answer(endpoints[0]), ok) then 0
    else 1 + FirstAccepted(endpoints[1..], answer, ok)
  }

  /** The log lines written while trying `endpoints` in order: one per endpoint whose
      answer `diagnose` reports as an exception caught by the loop. */
  function Logged<B>(endpoints: seq<string>, answer: string -> Response<B>, diagnose: Response<B> -> Option<string>): seq<LogEntry>
  {
    if endpoints == [] then []
    else
      var last := endpoints[|endpoints| - 1];
      Logged(endpoints[..|endpoints| - 1], answer, diagnose)
        + match diagnose(answer(last)) {
            case Some(e) => [EndpointError(last, e)]
            case None => []
          }
  }

  /** The first accepting endpoint is the one after a run of refusals. */
  lemma FirstAcceptedIs<B>(endpoints: seq<string>, answer: string -> Response<B>, ok: int -> bool, i: nat)
    requires i <= |endpoints|
    requires forall j :: 0 <= j < i ==> !Accepts(answer(endpoints[j]), ok)
    requires i < |endpoints| ==> Accepts(answer(endpoints[i]), ok)
    ensures FirstAccepted(endpoints, answer, ok) == i
  {
  }

  /** Trying one more endpoint adds at most its own line to the log. */
  lemma LoggedExtend<B>(endpoints: seq<string>, answer: string -> Response<B>,
                        diagnose: Response<B> -> Option<string>, e: string)
    ensures Logged(endpoints + [e], answer, diagnose)
      == Logged(endpoints, answer, diagnose)
        + match diagnose(answer(e)) {
            case Some(m) => [EndpointError(e, m)]
            case None => []
          }
  {
    assert (endpoints + [e])[..|endpoints|] == endpoints;
  }

  /** One round of an endpoint loop after a run of refusals: the next endpoint either
      is the first accepted one, or extends the run; its diagnosis, if any, is the one
      line it adds to the log. */
  lemma LoopStep<B>(endpoints: seq<string>, answer: string -> Response<B>, ok: int -> bool,
                    diagnose: Response<B> -> Option<string>, i: nat)
    requires i < |endpoints|
    requires forall j :: 0 <= j < i ==> !Accepts(answer(endpoints[j]), ok)
    ensures endpoints[..i] + [endpoints[i]] == endpoints[..i + 1]
    ensures Logged(endpoints[..i + 1], answer, diagnose)
      == Logged(endpoints[..i], answer, diagnose)
        + match diagnose(answer(endpoints[i])) {
            case Some(m) => [EndpointError(endpoints[i], m)]
            case None => []
          }
    ensures Accepts(answer(endpoints[i]), ok) ==> FirstAccepted(endpoints, answer, ok) == i
    ensures !Accepts(answer(endpoints[i]), ok) ==> forall j :: 0 <= j < i + 1 ==> !Accepts(answer(endpoints[j]), ok)
  {
    LoggedPrefix(endpoints, answer, diagnose, i);
    if Accepts(answer(endpoints[i]), ok) {
      FirstAcceptedIs(endpoints, answer, ok, i);
    }
  }

  /** The log of the first i + 1 endpoints is that of the first i and the line of the
      next one. */
  lemma LoggedPrefix<B>(endpoints: seq<string>, answer: string -> Response<B>,
                        diagnose: Response<B> -> Option<string>, i: nat)
    requires i < |endpoints|
    ensures endpoints[..i] + [endpoints[i]] == endpoints[..i + 1]
    ensures Logged(endpoints[..i + 1], answer, diagnose)
      == Logged(endpoints[..i], answer, diagnose)
        + match diagnose(answer(endpoints[i])) {
            case Some(m) => [EndpointError(endpoints[i], m)]
            case None => []
          }
  {
    assert endpoints[..i + 1][..i] == endpoints[..i];
  }

  /** Every endpoint that was tried and failed with an exception has its line in the log. */
  lemma {:induction false} LoggedMentions<B>(endpoints: seq<string>, answer: string -> Response<B>,
                                            diagnose: Response<B> -> Option<string>, i: nat)
    requires i < |endpoints| && diagnose(answer(endpoints[i])).Some?
    ensures EndpointError(endpoints[i], diagnose(answer(endpoints[i])).value) in Logged(endpoints, answer, diagnose)
  {
    var n := |endpoints| - 1;
    if i < n {
      assert endpoints[..n][i] == endpoints[i];
      LoggedMentions(endpoints[..n], answer, diagnose, i);
    }
  }

  /** In get_upload_url only an exception is logged; a non-200 status passes silently. */
  function SlotDiagnosis(r: Response<SlotBody>): Option<string> {
    if r.Raised? then Some(r.error) else None
  }

  /** The exception text create_video raises for a 403 (main.py:203-208). */
  datatype ForbiddenReason = DurationExceeded | QuotaExceeded | AccessForbidden

  /** The 403 message, with 'Unknown error' when the answer carries none. */
  function ForbiddenMessage(message: Option<string>): string {
    if message.Some? then message.value else "Unknown error"
  }

  /** "duration" is looked for first, then "quota" or "limit", case-insensitively. */
  function ClassifyForbidden(message: Option<string>): (r: ForbiddenReason)
    ensures r == DurationExceeded <==> Contains(Lower(ForbiddenMessage(message)), "duration")
    ensures r == QuotaExceeded <==>
      !Contains(Lower(ForbiddenMessage(message)), "duration")
      && (Contains(Lower(ForbiddenMessage(message)), "quota") || Contains(Lower(ForbiddenMessage(message)), "limit"))
  {
    var m := Lower(ForbiddenMessage(message));
    if Contains(m, "duration") then DurationExceeded
    else if Contains(m, "quota") || Contains(m, "limit") then QuotaExceeded
    else AccessForbidden
  }

  /** A 403 without a message is classified as plain access_forbidden. */
  lemma UnknownErrorIsForbidden()
    ensures ClassifyForbidden(None) == AccessForbidden
  {
    var m := Lower("Unknown error");
    assert m == "unknown error";
    MissingCharNotContained(m, "duration", 'd');
    MissingCharNotContained(m, "quota", 'q');
    MissingCharNotContained(m, "limit", 'l');
  }

  function ForbiddenText(r: ForbiddenReason): string {
    match r
    case DurationExceeded => "video_duration_exceeded"
    case QuotaExceeded => "quota_exceeded"
    case AccessForbidden => "access_forbidden"
  }

  /** In create_video an exception, or the exception raised for a 403, is logged. */
  function VideoDiagnosis(r: Response<VideoBody>): Option<string> {
    match r
    case Raised(e) => Some(e)
    case Answer(status, body) =>
      if status == 403 then Some(ForbiddenText(ClassifyForbidden(body.errorMessage))) else None
  }

  /** The for-loop of get_upload_url (main.py:155-163) over its list of endpoints
      (UploadEndpoints): they are asked in order and the first 200 answer is returned,
      even when it lacks an upload_url. */
  method QueryUploadEndpoints(endpoints: seq<string>, answer: string -> Response<SlotBody>)
    returns (slot: SlotBody, tried: seq<string>, log: seq<LogEntry>)
    ensures var k := FirstAccepted(endpoints, answer, SlotAccepted);
      && (k < |endpoints| ==> slot == answer(endpoints[k]).body && tried == endpoints[..k + 1])
      && (k == |endpoints| ==> slot == SlotBody(None, None) && tried == endpoints)
    ensures log == Logged(tried, answer, SlotDiagnosis)
  {
    tried, log := [], [];
    var i := 0;
    while i < |endpoints|
      invariant 0 <= i <= |endpoints|
      invariant tried == endpoints[..i]
      invariant forall j :: 0 <= j < i ==> !Accepts(answer(endpoints[j]), SlotAccepted)
      invariant log == Logged(tried, answer, SlotDiagnosis)
    {
      var endpoint := endpoints[i];
      var response := answer(endpoint);
      LoopStep(endpoints, answer, SlotAccepted, SlotDiagnosis, i);
      tried := tried + [endpoint];
      if response.Answer? && response.status == 200 {
        slot := response.body;
        return;
      }
      if response.Raised? {
        log := log + [EndpointError(endpoint, response.error)];
      }
      i := i + 1;
    }
    FirstAcceptedIs(endpoints, answer, SlotAccepted, i);
    slot := SlotBody(None, None);
  }

  /** The id create_video's loop ends with: that of the first 200/201 answer, or None. */
  function CreatedId(endpoints: seq<string>, answer: string -> Response<VideoBody>): Option<string> {
    var k := FirstAccepted(endpoints, answer, VideoCreated);
    if k < |endpoints| then answer(endpoints[k]).body.id else None
  }

  /** The for-loop of create_video (main.py:194-211): the first 200 or 201 answer gives
      the id (possibly None). Every exception inside the loop, including the one raised
      for a 403, is caught and logged at main.py:209, and the next endpoint is tried.
      create_video passes its list of endpoints (VideoEndpoints). */
  method QueryVideoEndpoints(endpoints: seq<string>, answer: string -> Response<VideoBody>)
    returns (id: Option<string>, tried: seq<string>, log: seq<LogEntry>)
    ensures var k := FirstAccepted(endpoints, answer, VideoCreated);
      && (k < |endpoints| ==> id == answer(endpoints[k]).body.id && tried == endpoints[..k + 1])
      && (k == |endpoints| ==> id == None && tried == endpoints)
    ensures id == CreatedId(endpoints, answer)
    ensures log == Logged(tried, answer, VideoDiagnosis)
  {
    tried, log := [], [];
    var i := 0;
    while i < |endpoints|
      invariant 0 <= i <= |endpoints|
      invariant tried == endpoints[..i]
      invariant forall j :: 0 <= j < i ==> !Accepts(answer(endpoints[j]), VideoCreated)
      invariant log == Logged(tried, answer, VideoDiagnosis)
    {
      var endpoint := endpoints[i];
      var response := answer(endpoint);
      LoopStep(endpoints, answer, VideoCreated, VideoDiagnosis, i);
      tried := tried + [endpoint];
      if response.Answer? && (response.status == 200 || response.status == 201) {
        id := response.body.id;
        return;
      }
      var diagnosis := VideoDiagnosis(response);
      if diagnosis.Some? {
        log := log + [EndpointError(endpoint, diagnosis.value)];
      }
      i := i + 1;
    }
    FirstAcceptedIs(endpoints, answer, VideoCreated, i);
    id := None;
  }

  /** When every endpoint answers 403, create_video's loop creates nothing. */
  lemma AllForbiddenCreatesNothing(endpoints: seq<string>, answer: string -> Response<VideoBody>)
    requires forall i :: 0 <= i < |endpoints| ==> answer(endpoints[i]).Answer? && answer(endpoints[i]).status == 403
    ensures FirstAccepted(endpoints, answer, VideoCreated) == |endpoints|
    ensures CreatedId(endpoints, answer) == None
  {
    FirstAcceptedIs(endpoints, answer, VideoCreated, |endpoints|);
  }

  /** A 403 from every video endpoint ends in None: the classification reaches only
      the log, never the caller. */
  lemma {:induction false} ForbiddenEverywhereIsSwallowed(answer: string -> Response<VideoBody>)
    requires forall i :: 0 <= i < |VideoEndpoints| ==>
      answer(VideoEndpoints[i]).Answer? && answer(VideoEndpoints[i]).status == 403
    ensures FirstAccepted(VideoEndpoints, answer, VideoCreated) == |VideoEndpoints|
    ensures forall i :: 0 <= i < |VideoEndpoints| ==>
      EndpointError(VideoEndpoints[i], ForbiddenText(ClassifyForbidden(answer(VideoEndpoints[i]).body.errorMessage)))
        in Logged(VideoEndpoints, answer, VideoDiagnosis)
  {
    forall i | 0 <= i < |VideoEndpoints|
      ensures EndpointError(VideoEndpoints[i], ForbiddenText(ClassifyForbidden(answer(VideoEndpoints[i]).body.errorMessage)))
        in Logged(VideoEndpoints, answer, VideoDiagnosis)
    {
      LoggedMentions(VideoEndpoints, answer, VideoDiagnosis, i);
    }
  }

  /** main.py's DailymotionUploader: the credentials it authenticates with and the
      access token it caches for the rest of the process. */
  class DailymotionUploader {
    var accessToken: Option<string>
    var apiKey: Option<string>
    var apiSecret: Option<string>
    var username: Option<string>
    var password: Option<string>

    constructor ()
      ensures accessToken == None && apiKey == None && apiSecret == None
      ensures username == None && password == None
    {
      accessToken, apiKey, apiSecret, username, password := None, None, None, None, None;
    }

    /** get_access_token (main.py:127-146): the cached token when it is truthy, without
        any request; otherwise a password-grant request to the token URL answered by `answer`. */
    method GetAccessToken(answer: Response<TokenBody>) returns (r: Outcome<Option<string>>, requested: bool)
      modifies this`accessToken
      ensures var f := FetchToken(old(accessToken), answer);
        r == f.result && requested == f.requested && accessToken == f.cache
    {
      if accessToken.Some? && accessToken.value != "" {
        return Done(accessToken), false;
      }
      requested := true;
      match answer
      case Raised(e) =>
        r := Threw(e);
      case Answer(status, body) =>
        if status == 200 {
          accessToken := body.accessToken;
          r := Done(accessToken);
        } else {
          r := Done(None);
        }
    }

    /** get_upload_url (main.py:148-163): no token means (None, None) and no endpoint is
        asked; otherwise the endpoint loop. An exception of the token request propagates. */
    method GetUploadUrl(tokenAnswer: Response<TokenBody>, answer: string -> Response<SlotBody>)
      returns (r: Outcome<SlotBody>, tried: seq<string>, log: seq<LogEntry>)
      modifies this`accessToken
      ensures var f := FetchToken(old(accessToken), tokenAnswer);
        && accessToken == f.cache
        && (f.result.Threw? ==> r == Threw(f.result.error) && tried == [] && log == [])
        && (f.result.Done? && !Truthy(f.result.value) ==> r == Done(SlotBody(None, None)) && tried == [] && log == [])
        && (f.result.Done? && Truthy(f.result.value) ==>
              var k := FirstAccepted(UploadEndpoints, answer, SlotAccepted);
              && (k < |UploadEndpoints| ==> r == Done(answer(UploadEndpoints[k]).body) && tried == UploadEndpoints[..k + 1])
              && (k == |UploadEndpoints| ==> r == Done(SlotBody(None, None)) && tried == UploadEndpoints)
              && log == Logged(tried, answer, SlotDiagnosis))
    {
      var token, _ := GetAccessToken(tokenAnswer);
      tried, log := [], [];
      if token.Threw? {
        return Threw(token.error), tried, log;
      }
      if !(token.value.Some? && token.value.value != "") {
        return Done(SlotBody(None, None)), tried, log;
      }
      var slot;
      slot, tried, log := QueryUploadEndpoints(UploadEndpoints, answer);
      r := Done(slot);
    }

    /** create_video (main.py:180-211): no token means None; otherwise the endpoint loop,
        which yields an id only from a 200/201 answer and None in every other case. */
    method CreateVideo(tokenAnswer: Response<TokenBody>, answer: string -> Response<VideoBody>)
      returns (r: Outcome<Option<string>>, tried: seq<string>, log: seq<LogEntry>)
      modifies this`accessToken
      ensures var f := FetchToken(old(accessToken), tokenAnswer);
        && accessToken == f.cache
        && (f.result.Threw? ==> r == Threw(f.result.error) && tried == [] && log == [])
        && (f.result.Done? && !Truthy(f.result.value) ==> r == Done(None) && tried == [] && log == [])
        && (f.result.Done? && Truthy(f.result.value) ==>
              var k := FirstAccepted(VideoEndpoints, answer, VideoCreated);
              && (k < |VideoEndpoints| ==> r == Done(answer(VideoEndpoints[k]).body.id) && tried == VideoEndpoints[..k + 1])
              && (k == |VideoEndpoints| ==> r == Done(None) && tried == VideoEndpoints)
              && log == Logged(tried, answer, VideoDiagnosis))
    {
      var token, _ := GetAccessToken(tokenAnswer);
      tried, log := [], [];
      if token.Threw? {
        return Threw(token.error), tried, log;
      }
      if !(token.value.Some? && token.value.value != "") {
        return Done(None), tried, log;
      }
      var id;
      id, tried, log := QueryVideoEndpoints(VideoEndpoints, answer);
      r := Done(id);
    }
  }
}

=== FILE: values.dfy ===
/** Value types shared by the whole model. */
module Values {

  /** A Telegram user id. */
  type UserId = int

  /** Python's "None or a value". */
  datatype Option<+T> = None | Some(value: T)

  /** A call that either returns a value or raises an exception whose text is `error`. */
  datatype Outcome<+T> = Done(value: T) | Threw(error: string)

  /** Python truthiness of a value that is None or a string: None and "" are false. */
  predicate Truthy(s: Option<string>) {
    s.Some? && s.value != ""
  }
}

=== FILE: video.dfy ===
/** The decisions main.py makes about an incoming video: which documents are accepted
    (handle_document), how the file name is split (os.path.splitext on POSIX), which
    download path a size takes, and which status text process_video_upload shows. */
module VideoUpload {
  import opened Values
  import opened Text
  import Uploader

  /** main.py:335 */
  const VideoExtensions := [".mp4", ".avi", ".mov", ".mkv", ".wmv", ".flv", ".webm", ".m4v", ".3gp", ".mpg", ".mpeg"]

  /** 1024 * 1024: sizes are compared as whole bytes, since dividing by a power of two is exact. */
  const MiB := 1048576
  /** Files above 2048 MB are refused. */
  const MaxUploadBytes := 2048 * MiB
  /** Files of at most 20 MB are fetched through the Bot API. */
  const BotApiBytes := 20 * MiB

  const VideoUrlPrefix := "https://www.dailymotion.com/video/"

  // ---------------------------------------------------------------------------
  // handle_document / handle_video

  /** any(s.endswith(ext) for ext in suffixes) */
  function AnyEndsWith(s: string, suffixes: seq<string>): (b: bool)
    ensures b <==> exists i :: 0 <= i < |suffixes| && EndsWith(s, suffixes[i])
  {
    if suffixes == [] then false
    else EndsWith(s, suffixes[0]) || AnyEndsWith(s, suffixes[1..])
  }

  /** The test of main.py:336: a non-empty file name whose lower-case form ends with a
      listed extension. */
  function AcceptsDocument(fileName: Option<string>): (b: bool)
    ensures b <==> Truthy(fileName) && exists e :: e in VideoExtensions && EndsWith(Lower(fileName.value), e)
  {
    Truthy(fileName) && AnyEndsWith(Lower(fileName.value), VideoExtensions)
  }

  /** The name handle_video passes on: the video's file_name, or "video.mp4" when it is
      missing or empty (main.py:331). */
  function VideoFileName(fileName: Option<string>): (r: string)
    ensures Truthy(fileName) ==> r == fileName.value
    ensures !Truthy(fileName) ==> r == "video.mp4"
    // the default name would pass handle_document's extension test as well
    ensures !Truthy(fileName) ==> AcceptsDocument(Some(r))
  {
    if Truthy(fileName) then fileName.value
    else
      var r := "video.mp4";
      assert EndsWith(Lower(r), ".mp4");
      r
  }

  // ---------------------------------------------------------------------------
  // os.path.splitext

  datatype PathParts = PathParts(root: string, ext: string)

  /** Some character of s[from..to] is not a dot. */
  predicate HasNonDot(s: string, from: int, to: int)
    requires 0 <= from <= to <= |s|
  {
    exists i :: from <= i < to && s[i] != '.'
  }

  /** The last path component of p holds a dot with a non-dot character somewhere
      before it: exactly the names POSIX os.path.splitext gives an extension. */
  predicate HasExtension(p: string) {
    exists i, j :: 0 <= i < j < |p| && p[i] != '.' && p[j] == '.' && '/' !in p[i..]
  }

  /** POSIX os.path.splitext: the extension starts at the last dot of the last path
      component, unless that component has only dots before it. */
  function SplitExt(p: string): (r: PathParts)
    ensures r.root + r.ext == p
    ensures r.ext != [] <==> HasExtension(p)
    // a found extension runs from the last dot to the end: no later dot, no slash
    ensures r.ext != [] ==> r.ext[0] == '.' && '.' !in r.ext[1..] && '/' !in r.ext
  {
    var sep := LastIndexOf(p, '/');
    var dot := LastIndexOf(p, '.');
    if dot > sep && HasNonDot(p, sep + 1, dot) then
      ExtensionAtLastDot(p);
      PathParts(p[..dot], p[dot..])
    else
      ExtensionFound(p);
      PathParts(p, [])
  }

  /** A name that passes splitext's test has an extension, and the part from its last
      dot holds no other dot and no slash. */
  lemma ExtensionAtLastDot(p: string)
    requires LastIndexOf(p, '.') > LastIndexOf(p, '/')
    requires HasNonDot(p, LastIndexOf(p, '/') + 1, LastIndexOf(p, '.'))
    ensures HasExtension(p)
    ensures var e := p[LastIndexOf(p, '.')..]; e[0] == '.' && '.' !in e[1..] && '/' !in e
  {
    var sep := LastIndexOf(p, '/');
    var dot := LastIndexOf(p, '.');
    var e := p[dot..];
    assert e[1..] == p[dot + 1..];
    assert forall i :: dot <= i < |p| ==> p[i] == e[i - dot];
    var i :| sep + 1 <= i < dot && p[i] != '.';
    forall k | 0 <= k < |p[i..]|
      ensures p[i..][k] != '/'
    {
      assert p[i..][k] == p[i + k];
    }
  }

  /** A name with an extension passes splitext's test: its last dot lies in the last
      component, after a non-dot character. */
  lemma ExtensionFound(p: string)
    ensures HasExtension(p) ==>
      var sep := LastIndexOf(p, '/');
      var dot := LastIndexOf(p, '.');
      dot > sep && HasNonDot(p, sep + 1, dot)
  {
    if HasExtension(p) {
      var i, j :| 0 <= i < j < |p| && p[i] != '.' && p[j] == '.' && '/' !in p[i..];
      forall k | i <= k < |p|
        ensures p[k] != '/'
      {
        assert p[i..][k - i] == p[k];
      }
    }
  }

  /** ".mkv", a leading dot and then the extension, has none. */
  lemma SplitExtLeadingDot()
    ensures SplitExt(".mkv") == PathParts(".mkv", "")
  {
    ExtensionIffNotOnlyDots(".mkv", 0);
  }

  /** The suffix of the temporary file: the extension, or '.mp4' without one (main.py:364). */
  function TempSuffix(fileName: string): (t: string)
    ensures |t| >= 1 && t[0] == '.' && '.' !in t[1..] && '/' !in t
    ensures HasExtension(fileName) ==> EndsWith(fileName, t)
    ensures !HasExtension(fileName) ==> t == ".mp4"
  {
    var ext := SplitExt(fileName).ext;
    if ext != [] then ext else ".mp4"
  }

  /** The video title: the file name without its extension (main.py:381). */
  function VideoTitle(fileName: string): (title: string)
    ensures !HasExtension(fileName) ==> title == fileName
    ensures HasExtension(fileName) ==> title + TempSuffix(fileName) == fileName
  {
    SplitExt(fileName).root
  }

  /** A dot followed by at least one character, none of them a dot or a slash. */
  predicate IsExtension(e: string) {
    |e| >= 2 && e[0] == '.' && forall k :: 1 <= k < |e| ==> e[k] != '.' && e[k] != '/'
  }

  /** Every listed extension has that shape. */
  lemma ListedIsExtension(e: string)
    requires e in VideoExtensions
    ensures IsExtension(e)
  {
  }

  /** Lower-casing keeps dots and slashes where they are. */
  lemma LowerKeepsMarks(s: string, i: int)
    requires 0 <= i < |s|
    ensures Lower(s)[i] == '.' <==> s[i] == '.'
    ensures Lower(s)[i] == '/' <==> s[i] == '/'
  {
  }

  /** When the lower-cased name ends with an extension, its last dot is the one that
      starts the extension and no slash follows it. */
  lemma {:induction false} LastDotStartsExtension(fileName: string, e: string)
    requires IsExtension(e) && EndsWith(Lower(fileName), e)
    ensures LastIndexOf(fileName, '.') == |fileName| - |e|
    ensures LastIndexOf(fileName, '/') < |fileName| - |e|
  {
    var j := |fileName| - |e|;
    var low := Lower(fileName);
    forall i | j <= i < |fileName|
      ensures (fileName[i] == '.' || fileName[i] == '/') <==> (i == j && fileName[i] == '.')
    {
      assert low[j..][i - j] == low[i];
      LowerKeepsMarks(fileName, i);
    }
  }

  /** With its last dot at j and no slash after it, splitext's extension is empty or
      starts at j. */
  lemma SplitExtAt(p: string, j: int)
    requires 0 <= j < |p| && LastIndexOf(p, '.') == j && LastIndexOf(p, '/') < j
    ensures SplitExt(p).ext == [] || SplitExt(p).ext == p[j..]
  {
  }

  /** Every character of the last path component before position j is a dot. */
  predicate OnlyDotsBefore(p: string, j: int)
    requires 0 <= j <= |p|
  {
    forall k :: 0 <= k < j && '/' !in p[k..] ==> p[k] == '.'
  }

  /** Then splitext finds that extension (in its original case), unless the last
      component has only dots before it, as in ".mkv", when it finds none. */
  lemma SplitExtFindsSuffix(fileName: string, e: string)
    requires IsExtension(e) && EndsWith(Lower(fileName), e)
    ensures SplitExt(fileName).ext == [] <==> OnlyDotsBefore(fileName, |fileName| - |e|)
    ensures SplitExt(fileName).ext != [] ==> Lower(SplitExt(fileName).ext) == e
  {
    var j := |fileName| - |e|;
    LastDotStartsExtension(fileName, e);
    SplitExtAt(fileName, j);
    LowerSuffix(fileName, j);
    ExtensionIffNotOnlyDots(fileName, j);
  }

  /** With its last dot at j, a name has an extension exactly when its last component
      holds a non-dot character before j. */
  lemma ExtensionIffNotOnlyDots(p: string, j: int)
    requires 0 <= j < |p| && LastIndexOf(p, '.') == j
    ensures HasExtension(p) <==> !OnlyDotsBefore(p, j)
  {
    forall k | 0 <= k < j && '/' !in p[k..] && p[k] != '.'
      ensures HasExtension(p)
    {
    }
    if HasExtension(p) {
      var i, d :| 0 <= i < d < |p| && p[i] != '.' && p[d] == '.' && '/' !in p[i..];
      assert d <= j;
    }
  }

  /** The temporary file of an accepted document always carries a listed extension
      (up to case): either its own, or the '.mp4' default when splitext finds none,
      as for a name made only of dots and the extension, such as ".mkv". */
  lemma AcceptedSuffixIsListed(fileName: string)
    requires AcceptsDocument(Some(fileName))
    ensures Lower(TempSuffix(fileName)) in VideoExtensions
  {
    var e :| e in VideoExtensions && EndsWith(Lower(fileName), e);
    SuffixOfListedIsListed(fileName, e);
  }

  lemma SuffixOfListedIsListed(fileName: string, e: string)
    requires e in VideoExtensions && EndsWith(Lower(fileName), e)
    ensures Lower(TempSuffix(fileName)) in VideoExtensions
  {
    ListedIsExtension(e);
    SplitExtFindsSuffix(fileName, e);
    if SplitExt(fileName).ext == [] {
      assert TempSuffix(fileName) == VideoExtensions[0];
      assert Lower(VideoExtensions[0]) == VideoExtensions[0];
    }
  }

  // ---------------------------------------------------------------------------
  // process_video_upload

  /** The two download paths of main.py:368-374. */
  datatype Route = BotApi | LargeFile

  function RouteFor(size: nat): (r: Route)
    ensures r == BotApi <==> size <= BotApiBytes
  {
    if size <= BotApiBytes then BotApi else LargeFile
  }

  /** The final text of the status message. */
  datatype Status =
    | TooLarge                              // main.py:361
    | Uploaded(title: string, url: string)  // main.py:389
    | DurationExceeded                      // main.py:396
    | QuotaExceeded                         // main.py:398
    | DownloadFailed                        // main.py:400
    | Failed(error: string)                 // main.py:402

  /** The ordered substring tests of the exception handler (main.py:394-402). */
  function ErrorStatus(e: string): (s: Status)
    ensures s == DurationExceeded <==> Contains(e, "video_duration_exceeded")
    ensures s == QuotaExceeded <==> !Contains(e, "video_duration_exceeded") && Contains(e, "quota_exceeded")
    ensures s == DownloadFailed <==>
      !Contains(e, "video_duration_exceeded") && !Contains(e, "quota_exceeded")
      && (Contains(e, "Download failed") || Contains(e, "empty"))
    ensures s.Failed? ==> s.error == e
    ensures !s.TooLarge? && !s.Uploaded?
  {
    if Contains(e, "video_duration_exceeded") then DurationExceeded
    else if Contains(e, "quota_exceeded") then QuotaExceeded
    else if Contains(e, "Download failed") || Contains(e, "empty") then DownloadFailed
    else Failed(e)
  }

  /** The link shown for an uploaded video (main.py:388). */
  function VideoUrl(id: string): (url: string)
    ensures |url| == |VideoUrlPrefix| + |id|
    ensures url[..|VideoUrlPrefix|] == VideoUrlPrefix && url[|VideoUrlPrefix|..] == id
  {
    VideoUrlPrefix + id
  }

  /** Different ids give different links. */
  lemma VideoUrlInjective(a: string, b: string)
    requires VideoUrl(a) == VideoUrl(b)
    ensures a == b
  {
    assert a == VideoUrl(a)[|VideoUrlPrefix|..];
  }

  /** What str(e) reads when file_size is None and is divided (main.py:359). */
  const NoSizeError := "unsupported operand" + " type(s) for" + " /: 'NoneType'" + " and 'int'"
  /** The exceptions process_video_upload raises itself. */
  const BotApiEmptyError := "Download failed: empty file"       // main.py:372
  const LargeFileEmptyError := "Downloaded file is empty"       // main.py:350
  const UploadFailedError := "Upload failed"                    // main.py:379
  const CreationFailedError := "Video creation failed"          // main.py:386

  /** The record of one process_video_upload run: the suffix of the temporary file
      made (None: none was made), the download path taken, and the final status. */
  datatype Report = Report(tempSuffix: Option<string>, route: Option<Route>, status: Status)

  /** process_video_upload (main.py:354-407) over the results of its external calls:
      `download` is the size of the downloaded file (or what the download raised),
      `uploadFile` the result of upload_video_file and `create` that of create_video. */
  function ProcessVideoUpload(fileSize: Option<nat>, fileName: string, download: Outcome<nat>,
                              uploadFile: Outcome<Option<string>>, create: Outcome<Option<string>>): (r: Report)
    ensures fileSize.None? ==> r == Report(None, None, Failed(NoSizeError))
    ensures fileSize.Some? && fileSize.value > MaxUploadBytes ==> r == Report(None, None, TooLarge)
    ensures fileSize.Some? && fileSize.value <= MaxUploadBytes ==>
      && r.tempSuffix == Some(TempSuffix(fileName))
      && r.route == Some(RouteFor(fileSize.value))
      && !r.status.TooLarge?
    ensures r.status.Uploaded? <==>
      && fileSize.Some? && fileSize.value <= MaxUploadBytes
      && download.Done? && download.value > 0
      && uploadFile.Done? && Truthy(uploadFile.value)
      && create.Done? && Truthy(create.value)
    ensures r.status.Uploaded? ==>
      r.status.title == VideoTitle(fileName) && r.status.url == VideoUrl(create.value.value)
    // a failed run shows the classification of the first step that failed
    ensures fileSize.Some? && fileSize.value <= MaxUploadBytes ==>
      && (download.Threw? ==> r.status == ErrorStatus(download.error))
      && (download.Done? && download.value == 0 ==> r.status == DownloadFailed)
      && (download.Done? && download.value > 0 ==>
            && (uploadFile.Threw? ==> r.status == ErrorStatus(uploadFile.error))
            && (uploadFile.Done? && !Truthy(uploadFile.value) ==> r.status == Failed(UploadFailedError))
            && (uploadFile.Done? && Truthy(uploadFile.value) ==>
                  && (create.Threw? ==> r.status == ErrorStatus(create.error))
                  && (create.Done? && !Truthy(create.value) ==> r.status == Failed(CreationFailedError))))
  {
    match fileSize
    case None =>
      NoSizeErrorIsPlain();
      Report(None, None, ErrorStatus(NoSizeError))
    case Some(size) =>
      if size > MaxUploadBytes then Report(None, None, TooLarge)
      else
        EmptyTextsAreDownloadFailures();
        UploadFailedIsPlain();
        CreationFailedIsPlain();
        var suffix := TempSuffix(fileName);
        var route := RouteFor(size);
        var status :=
          if download.Threw? then ErrorStatus(download.error)
          else if download.value == 0 then
            ErrorStatus(if route == BotApi then BotApiEmptyError else LargeFileEmptyError)
          else if uploadFile.Threw? then ErrorStatus(uploadFile.error)
          else if !Truthy(uploadFile.value) then ErrorStatus(UploadFailedError)
          else if create.Threw? then ErrorStatus(create.error)
          else if !Truthy(create.value) then ErrorStatus(CreationFailedError)
          else Uploaded(VideoTitle(fileName), VideoUrl(create.value.value));
        Report(Some(suffix), Some(route), status)
  }

  /** A text lacking one character of each of the four keywords holds none of them,
      and is shown as it is. */
  lemma PlainWhenLacking(e: string, inDuration: char, inQuota: char, inDownload: char, inEmpty: char)
    requires inDuration in "video_duration_exceeded" && inDuration !in e
    requires inQuota in "quota_exceeded" && inQuota !in e
    requires inDownload in "Download failed" && inDownload !in e
    requires inEmpty in "empty" && inEmpty !in e
    ensures ErrorStatus(e) == Failed(e)
  {
    MissingCharNotContained(e, "video_duration_exceeded", inDuration);
    MissingCharNotContained(e, "quota_exceeded", inQuota);
    MissingCharNotContained(e, "Download failed", inDownload);
    MissingCharNotContained(e, "empty", inEmpty);
  }

  /** A text without an underscore that mentions a failed download or emptiness is
      reported as a failed download. */
  lemma DownloadFailedWhenMentioned(e: string)
    requires '_' !in e
    requires Contains(e, "Download failed") || Contains(e, "empty")
    ensures ErrorStatus(e) == DownloadFailed
  {
    MissingCharNotContained(e, "video_duration_exceeded", '_');
    MissingCharNotContained(e, "quota_exceeded", '_');
  }

  /** The characters each raised text lacks, one text (or one character) per lemma. */
  lemma NoSizeErrorLacksUnderscore()
    ensures '_' !in NoSizeError
  {
  }

  lemma NoSizeErrorLacksW()
    ensures 'w' !in NoSizeError
  {
  }

  lemma NoSizeErrorLacksM()
    ensures 'm' !in NoSizeError
  {
  }

  lemma UploadFailedLacks()
    ensures '_' !in UploadFailedError && 'w' !in UploadFailedError && 'y' !in UploadFailedError
  {
  }

  lemma CreationFailedLacks()
    ensures '_' !in CreationFailedError && 'w' !in CreationFailedError && 'y' !in CreationFailedError
  {
  }

  lemma AccessForbiddenLacks()
    ensures 'v' !in "access_forbidden" && 'q' !in "access_forbidden"
    ensures 'w' !in "access_forbidden" && 'm' !in "access_forbidden"
  {
  }

  lemma BotApiEmptyMentionsDownload()
    ensures '_' !in BotApiEmptyError && Contains(BotApiEmptyError, "Download failed")
  {
    ContainsPrefix(BotApiEmptyError, "Download failed");
  }

  lemma LargeFileEmptyMentionsEmpty()
    ensures '_' !in LargeFileEmptyError && Contains(LargeFileEmptyError, "empty")
  {
    assert LargeFileEmptyError == "Downloaded file is " + "empty";
    ContainsSuffix("Downloaded file is ", "empty");
  }

  /** None of the three texts below carries a keyword. */
  lemma NoSizeErrorIsPlain()
    ensures ErrorStatus(NoSizeError) == Failed(NoSizeError)
  {
    NoSizeErrorLacksUnderscore();
    NoSizeErrorLacksW();
    NoSizeErrorLacksM();
    PlainWhenLacking(NoSizeError, '_', '_', 'w', 'm');
  }

  lemma UploadFailedIsPlain()
    ensures ErrorStatus(UploadFailedError) == Failed(UploadFailedError)
  {
    UploadFailedLacks();
    PlainWhenLacking(UploadFailedError, '_', '_', 'w', 'y');
  }

  /** Both texts raised for an empty download classify as a failed download. */
  lemma EmptyTextsAreDownloadFailures()
    ensures ErrorStatus(BotApiEmptyError) == DownloadFailed
    ensures ErrorStatus(LargeFileEmptyError) == DownloadFailed
  {
    BotApiEmptyMentionsDownload();
    DownloadFailedWhenMentioned(BotApiEmptyError);
    LargeFileEmptyMentionsEmpty();
    DownloadFailedWhenMentioned(LargeFileEmptyError);
  }

  lemma CreationFailedIsPlain()
    ensures ErrorStatus(CreationFailedError) == Failed(CreationFailedError)
  {
    CreationFailedLacks();
    PlainWhenLacking(CreationFailedError, '_', '_', 'w', 'y');
  }

  /** The raised texts that carry no classification keyword fall through to the plain
      failure text. */
  lemma PlainErrorTexts()
    ensures ErrorStatus(NoSizeError) == Failed(NoSizeError)
    ensures ErrorStatus(UploadFailedError) == Failed(UploadFailedError)
    ensures ErrorStatus(CreationFailedError) == Failed(CreationFailedError)
  {
    NoSizeErrorIsPlain();
    UploadFailedIsPlain();
    CreationFailedIsPlain();
  }

  /** An empty download is reported as a failed download on both paths. */
  lemma EmptyDownloadIsReported(fileSize: nat, fileName: string, uploadFile: Outcome<Option<string>>, create: Outcome<Option<string>>)
    requires fileSize <= MaxUploadBytes
    ensures ProcessVideoUpload(Some(fileSize), fileName, Done(0), uploadFile, create).status == DownloadFailed
  {
  }

  /** Had create_video let its 403 exceptions through, each would reach its own
      status text. */
  lemma ForbiddenTextsWouldClassify()
    ensures ErrorStatus(Uploader.ForbiddenText(Uploader.DurationExceeded)) == DurationExceeded
    ensures ErrorStatus(Uploader.ForbiddenText(Uploader.QuotaExceeded)) == QuotaExceeded
    ensures ErrorStatus(Uploader.ForbiddenText(Uploader.AccessForbidden)) == Failed("access_forbidden")
  {
    ContainsPrefix("video_duration_exceeded", "video_duration_exceeded");
    MissingCharNotContained("quota_exceeded", "video_duration_exceeded", 'v');
    ContainsPrefix("quota_exceeded", "quota_exceeded");
    AccessForbiddenLacks();
    PlainWhenLacking("access_forbidden", 'v', 'q', 'w', 'm');
  }

  /** But create_video's loop swallows them; when it ends with None, as it does when
      every endpoint answers 403, the uploaded file is reported with the plain "Video
      creation failed" text, never the duration or quota message. */
  lemma ForbiddenNeverReachesUser(fileSize: nat, fileName: string, downloaded: nat, fileUrl: string)
    requires fileSize <= MaxUploadBytes && downloaded > 0 && fileUrl != ""
    ensures ProcessVideoUpload(Some(fileSize), fileName, Done(downloaded), Done(Some(fileUrl)), Done(None)).status
      == Failed(CreationFailedError)
  {
  }

  /** End to end: when every video endpoint answers 403, create_video's loop ends with
      None, so an uploaded file is reported as "Video creation failed". */
  lemma ForbiddenEverywhereShowsCreationFailed(fileSize: nat, fileName: string, downloaded: nat, fileUrl: string,
                                                answer: string -> Uploader.Response<Uploader.VideoBody>)
    requires fileSize <= MaxUploadBytes && downloaded > 0 && fileUrl != ""
    requires forall i :: 0 <= i < |Uploader.VideoEndpoints| ==>
      answer(Uploader.VideoEndpoints[i]).Answer? && answer(Uploader.VideoEndpoints[i]).status == 403
    ensures ProcessVideoUpload(Some(fileSize), fileName, Done(downloaded), Done(Some(fileUrl)),
                               Done(Uploader.CreatedId(Uploader.VideoEndpoints, answer))).status
      == Failed(CreationFailedError)
  {
    Uploader.AllForbiddenCreatesNothing(Uploader.VideoEndpoints, answer);
    ForbiddenNeverReachesUser(fileSize, fileName, downloaded, fileUrl);
  }

  /** But a 403 from one endpoint only moves the loop on: when the first endpoint answers
      403 and the second creates the video, the upload succeeds with that id. */
  lemma ForbiddenThenCreatedSucceeds(fileSize: nat, fileName: string, downloaded: nat, fileUrl: string,
                                     answer: string -> Uploader.Response<Uploader.VideoBody>, id: string)
    requires fileSize <= MaxUploadBytes && downloaded > 0 && fileUrl != "" && id != ""
    requires answer(Uploader.VideoEndpoints[0]).Answer? && answer(Uploader.VideoEndpoints[0]).status == 403
    requires answer(Uploader.VideoEndpoints[1]).Answer? && answer(Uploader.VideoEndpoints[1]).status == 201
    requires answer(Uploader.VideoEndpoints[1]).body.id == Some(id)
    ensures ProcessVideoUpload(Some(fileSize), fileName, Done(downloaded), Done(Some(fileUrl)),
                               Done(Uploader.CreatedId(Uploader.VideoEndpoints, answer))).status
      == Uploaded(VideoTitle(fileName), VideoUrl(id))
  {
    Uploader.FirstAcceptedIs(Uploader.VideoEndpoints, answer, Uploader.VideoCreated, 1);
  }
}
